=== FILE: README.md ===
# Vehicle registry (SIU Mali): a Dafny model

This project models the core of a shared vehicle registry, written in Dafny. Several administrations use the registry. Customs creates vehicles. Four agencies each keep one compliance document up to date:

- the national transport office (ONT) keeps the carte grise;
- insurers keep the assurance;
- the town hall (mairie) keeps the vignette;
- the technical-inspection centre (MTS) keeps the visite technique.

The police read records, and the state dashboard reads statistics.

What is modelled:

- **Server** (`sui-backend/server.js`). Each Express handler is a pure function. It takes the two tables (`vehicules` and `proprietaires`, as finite maps keyed by plate and by owner id) and the request. It returns an `Outcome`: the HTTP response, the tables afterwards, and the side effects in order. The effects are the Socket.IO `vehicle_updated` emits and the calls to the ledger audit logger.
  - The four document-status routes are one function, parameterised by the document they own.
  - The generic vehicle routes are modelled: GET, PUT and DELETE `/vehicules/:plaque`.
  - The owner routes are modelled: PUT and DELETE `/proprietaires/:id`.
  - `/stats` is a bundle of filter-counts over the tables.
- **Route matching and dispatch.** An Express-style matcher follows Express's default non-strict routing: a parameter is one non-empty path segment, and one trailing slash is tolerated. A dispatch function (`Server`) sends a GET under `/vehicules`, or a PUT carrying `nouveau_statut`, to the route its path matches. A path that no route matches gets Express's default 404 page.
- **What the browser sends.** The model takes the path the server matches to be the path the client built. This holds for plates that are `UrlSafe`: no space or control character, no `?`, `#`, `\` or `%`, and no `.` or `..` segment. Other characters are percent-encoded by the browser and decoded back by Express. Interior spaces and controls other than tab and newline also come back intact, and are excluded only to keep the condition simple.
- **Client** (`sui-frontend-v2`). Modelled as state-transition functions over React state:
  - `checkUser` (role choice, token storage) and the role-to-portal router;
  - the police portal: search, refetch on notification, police-status update, badge, action buttons;
  - the generic agency portal with its three configurations, and the ONT portal.
- **End-to-end lemmas.** These connect the two sides. Client requests are fed through the server model, and the server's answers pass through the JSON and axios models back into the client.

Modelling assumptions:

- Document statuses are a non-null enumeration (MANQUANT, VALIDE, EXPIRÉ). Under this assumption the owner-compliance query's `!=` is plain inequality. With SQL NULL semantics, a NULL status would not make an owner non-compliant.
- `CURRENT_TIMESTAMP` is an opaque `Timestamp` passed in by the caller.
- `proprietaires.id` is taken to be a 32-bit `integer` (or `SERIAL`) column, which fixes the range of ids `:id` can name. The repository ships no schema that states its type.
- The audit logger (`logAction`) is reduced to one flag: whether its credentials are configured.
  - Without credentials it throws. The throw happens after the UPDATE and after the emit, and the handler's catch turns it into a 500. The row change and the event remain.
  - With credentials, network errors are swallowed inside the logger, so the caller cannot see them.

Observations the proofs make explicit:

- **The police portal's update route does not exist on the server.** The portal sends `PUT /police/vehicules/:plaque/statut-police`. `Routes.PolicePathUnrouted` proves that none of the server's PUT routes matches that path, whatever the plate. The PUT routes are the four status routes, `/vehicules/:plaque` and `/proprietaires/:id`. In the dispatch model the request therefore gets Express's default 404 page, which is modelled as its status and one line of text. `PolicePortal.PoliceUpdateAgainstServer` proves that the portal then reports a communication error and keeps its result, and that nothing changes on the server.
- **An agency search with an empty plate lists every vehicle.** The portal sends `GET /vehicules/`, which non-strict routing gives to the list route. The portal shows the resulting array as its search result (`AgencyPortal.SearchAgainstServer`).
- **The two compliance figures on `/stats` contradict each other on the vignette.** `vehiculesAJour` (and the figure reported as `conformiteDocuments.vignette`) selects vignettes that are EXPIRÉ. The owner-compliance query wants them VALIDE. The model reproduces both queries as written. `Stats.UpToDateVehicleMakesOwnerNonCompliant` proves the consequence: an owner of any vehicle counted as up to date is never counted as compliant.

## Model

| member | source | states |
|---|---|---|
| Registry.ParseDocStatus | sui-backend/server.js:249-251 | a submitted status is accepted exactly when it is one of the three listed strings, and is read as the enumeration value with that name |
| Registry.ParseDocStatusName | sui-backend/server.js:249 | every status the server stores passes its own check again |
| Registry.SetDoc | sui-backend/server.js:253 | writing a status into a document's column changes that column only: the other three statuses and every other column keep their values |
| Registry.SetDocRestore | sui-backend/server.js:253 | writing back a document's old status restores the original row |
| Registry.SetDocCommute | sui-backend/server.js:253-316 | writes to two different documents' columns commute |
| Handlers.AfterAudit | sui-backend/hedera.js:12-14 | once the row is written, a missing-credential throw from the audit logger turns the answer into the 500 text and keeps the written tables and effects; with credentials the success answer stands |
| Handlers.UpdateDocStatus | sui-backend/server.js:245-326 | on each status route: an unlisted status gets 400 with tables and effects untouched, whether or not the plate exists; an unknown plate gets 404 with nothing changed and nothing emitted; a known plate gets only that document's column and `date_modification` changed on that one row, other rows and the owners table untouched, effects exactly one `vehicle_updated` for the plate followed by the audit call, and a 200 carrying the new row (500 when the audit logger throws) |
| Handlers.UpdateDocStatusEvents | sui-backend/server.js:256-258 | a status route emits an event exactly when it wrote a row, and then exactly one, naming the request's plate |
| Handlers.UpdateDocStatusIdempotent | sui-backend/server.js:253 | resubmitting the same status answers the same code and changes nothing but `date_modification`; the status column keeps its value |
| Handlers.AuditFailureKeepsUpdate | sui-backend/server.js:258-262 | when the audit logger throws after a successful update, the answer is 500 instead of 200, but the row change and the emitted event are the same as when it succeeds |
| Handlers.UpdateDocStatusCommute | sui-backend/server.js:245-326 | status updates on two different plates give the same tables in either order, whatever timestamps the two requests get |
| Handlers.UpdateDocStatusCommuteSameRow | sui-backend/server.js:253-316 | two updates of different documents of one row leave the same row in either order, except `date_modification`, which holds the timestamp of the request that came second; the other rows and the owners agree |
| Handlers.GetVehicle | sui-backend/server.js:87-104 | GET answers 200 with the row exactly when the plate exists, and 404 otherwise |
| Handlers.GetAfterStatusUpdate | sui-backend/server.js:87-104 | after a successful status update, GET on the plate answers 200 with exactly the row the PUT answered with, which holds the new status |
| Handlers.ListVehicles | sui-backend/server.js:112-115 | GET `/vehicules` answers 200 with every row of the table, each exactly once and nothing else, ordered by non-increasing `date_creation` (ties in the order the database picks) |
| Handlers.UpdateVehicle | sui-backend/server.js:123-141 | PUT `/vehicules/:plaque` overwrites exactly `couleur`, `statut_general` and `proprietaire_id` with the submitted values, unchecked, and stamps `date_modification`; a missing plate gets 404 with no change and no event; a hit emits one event, then audits, then answers 200 with the row (500 when the audit logger throws) |
| Handlers.UpdateVehicleKeepsStatuses | sui-backend/server.js:128 | the generic vehicle update never alters a document status, the police status or the plate |
| Handlers.DeleteVehicle | sui-backend/server.js:144-159 | DELETE removes exactly that plate, keeps all other rows, answers with the removed row, answers 404 with no change when the plate is absent, and never emits |
| Handlers.DeleteThenNotFound | sui-backend/server.js:147-152 | after a delete, the plate is gone: deleting it again and fetching it both answer 404 |
| Handlers.UpdateOwner | sui-backend/server.js:207-223 | PUT `/proprietaires/:id` overwrites exactly `adresse`, `telephone` and `email` of that owner; 404 with no change when absent; the vehicle table and the event stream are untouched |
| Handlers.DeleteOwner | sui-backend/server.js:226-238 | DELETE `/proprietaires/:id` removes exactly that owner and answers with it, leaves the vehicles (and their references to the owner) untouched, and emits nothing; 404 with no change when absent |
| Handlers.UpdateDocStatusKeepsWellKeyed | sui-backend/server.js:252-255 | the status routes keep every row's plate equal to its key |
| Handlers.CrudKeepsWellKeyed | sui-backend/server.js:123-238 | the vehicle and owner update and delete routes keep every row's key equal to its primary-key column |
| Routes.DocRouteRoundTrip | sui-backend/server.js:245-308 | the path of a status route built around a plate reaches that route with that plate exactly when the plate is one non-empty segment; otherwise no status route takes it |
| Routes.DocRouteSound | sui-backend/server.js:245-308 | whatever path a status route matches is that route's path around a one-segment plate, possibly followed by the one trailing slash that non-strict routing tolerates |
| Routes.VehicleRouteRoundTrip | sui-backend/server.js:87 | `/vehicules/<plate>` reaches the single-vehicle route with the plate when it is one segment, with the plate minus its last character when that is a slash after one segment, and not at all otherwise |
| Routes.VehiclePathListed | sui-backend/server.js:112 | `/vehicules/<plate>` reaches the list route exactly when the plate is empty, and then not the single-vehicle route |
| Routes.PolicePathUnrouted | sui-frontend-v2/src/portals/PolicePortal.jsx:143 | the police portal's update path is matched by none of the server's PUT routes (the four status routes, `/vehicules/:plaque`, `/proprietaires/:id`), whatever the plate |
| Server.ServeVehiculesGet | sui-backend/server.js:87-115 | a GET under `/vehicules` goes to the list route for `/vehicules` and `/vehicules/`, to the single-vehicle route with the plate the matcher extracts, and otherwise gets Express's 404 page |
| Server.OwnerIdText | sui-backend/server.js:210-213 | an `:id` text reads as an owner id exactly when it is an optional sign and at least one decimal digit whose value lies within 32 bits, and the id is then that signed decimal value; an empty text never does |
| Server.OwnerIdTextRoundTrip | sui-backend/server.js:210-213 | the text `${id}` puts into the path, for every id within 32 bits and negative ones included, reads back as that id |
| Server.ServeStatusPut | sui-backend/server.js:123-326 | a PUT whose body carries only `nouveau_statut` goes to the status route its path matches, to the generic vehicle route (writing NULL into its three columns), or to the owner route (NULL contact columns, 500 for an id the database cannot read); a path no route matches gets the 404 page, with tables and effects untouched |
| Server.DocVehicleOwnerDisjoint | sui-backend/server.js:123-308 | no path matches two of the PUT routes: no two status routes, no status route with the vehicle or owner route, and not those two together |
| Server.DocRoutesDisjoint | sui-backend/server.js:245-308 | two different status routes never match the same path, whatever the path |
| Server.DocPathServed | sui-frontend-v2/src/portals/GenericPortal.jsx:33-34 | a status path built by a portal is served by its document's route, with the portal's plate, when the plate is one segment, and by the 404 page with nothing changed otherwise |
| Stats.CountMonotone | sui-backend/server.js:351-364 | a weaker WHERE clause counts at least as many vehicles, and no count exceeds the number of vehicles |
| Stats.ComputeStats | sui-backend/server.js:342-394 | the totals are the table sizes; `vehiculesAJour` is at most each of the assurance, vignette and visite counts; each document count is at most `totalVehicules`; `citoyensAJour` is at most `totalProprietaires`; the revenue block is the three fixed figures |
| Stats.OwnersWithoutVehiclesCounted | sui-backend/server.js:366-372 | every owner no vehicle points to is counted in `citoyensAJour` |
| Stats.UpToDateVehicleMakesOwnerNonCompliant | sui-backend/server.js:361-372 | an owner with a vehicle counted in `vehiculesAJour` is never counted in `citoyensAJour`, because the two queries want different vignette statuses |
| Stats.AllValidFleet | sui-backend/server.js:361-372 | when every vehicle has assurance, vignette and visite VALIDE, every owner is compliant and no vehicle is counted up to date |
| Stats.CountRowInvariant | sui-backend/server.js:353-358 | a count does not change when one row changes in a way the count's predicate cannot see |
| Stats.StatusUpdateKeepsOtherCounts | sui-backend/server.js:252-255 | a status route on one document leaves the counts of the other documents, the vehicle total and the owners table unchanged |
| Stats.CountedStatusUpdateRaisesCount | sui-backend/server.js:353-358 | setting a document to the status its count selects never lowers that count |
| Wire.VehicleJson | sui-backend/server.js:252-261 | a row is sent as an object with exactly the table's fifteen columns |
| Wire.Deliver | sui-frontend-v2/src/portals/GenericPortal.jsx:34-38 | axios resolves with the body on a 2xx status and rejects with the status and the body otherwise |
| Wire.VehicleJsonRoundTrip | sui-backend/server.js:252-261 | reading a sent row back gives the original row: the JSON form loses nothing |
| Wire.VehicleJsonColumn | sui-frontend-v2/src/portals/GenericPortal.jsx:73 | the sent row shows each document's status under that document's column name, and its plate under `plaque_immatriculation` |
| App.ChooseRole | sui-frontend-v2/src/App.jsx:37-41 | ETAT is chosen whenever it is in the group list, wherever it appears; otherwise the first group; no groups give no role; the chosen role is always one of the groups |
| App.CheckUser | sui-frontend-v2/src/App.jsx:18-54 | a failed session fetch clears user, role and the stored token; a successful one sets the user, stores the id token and sets the role from the groups claim, read as empty when absent; loading ends either way |
| App.MissingGroupsNoRole | sui-frontend-v2/src/App.jsx:26 | a session without a groups claim signs the user in with no role |
| App.LowerUpperRoundTrip | sui-frontend-v2/src/App.jsx:70 | lower-casing an upper-cased lower-case word gives the word back |
| App.AsciiLowerOfLower | sui-frontend-v2/src/App.jsx:70 | lower-casing leaves an already lower-case role name unchanged |
| App.RoutePortalKey | sui-frontend-v2/src/App.jsx:69-81 | a role reaches a named portal exactly when its lower-cased form is that portal's name; any other role, and no role, reaches the default portal |
| App.RoutePortalIgnoresCase | sui-frontend-v2/src/App.jsx:70-79 | each of the seven role names reaches its portal whether written in lower or in upper case |
| App.EtatGroupWins | sui-frontend-v2/src/App.jsx:37-38 | a user in the ETAT group is routed to the state portal whatever their other groups |
| App.CheckUserThenView | sui-frontend-v2/src/App.jsx:46-91 | after `checkUser`, a failed session shows the login page (loading has ended) and a good one shows the portal its groups' role routes to |
| PolicePortal.FetchVehicleData | sui-frontend-v2/src/portals/PolicePortal.jsx:77-105 | a fetch does nothing when its closure saw an update in progress; a success sets the result and the tracked plate and clears the error; a failure clears the result and the tracked plate, with the not-found text for 404 and the load-failure text otherwise |
| PolicePortal.HandleSearch | sui-frontend-v2/src/portals/PolicePortal.jsx:107-126 | a search on an empty plate changes nothing; otherwise it ends not loading, and shows the fetched row or the failure text; during a status update the fetch is skipped but the result is already cleared and the plate tracked |
| PolicePortal.SearchAgainstServer | sui-frontend-v2/src/portals/PolicePortal.jsx:92-98 | searching against the server, with no status update running: a plate the single-vehicle route extracts and finds (the plate itself when it is one segment) shows that row and tracks the plate; any other non-empty plate gets a 404, from the route or from Express, and shows the not-found text and tracks nothing |
| PolicePortal.OnVehicleUpdated | sui-frontend-v2/src/portals/PolicePortal.jsx:53-60 | a notification refetches only when a plate is tracked, is non-empty and equals the notified plate, and then fetches as the first render's closure would, with no update in progress |
| PolicePortal.OnVehicleUpdatedIntended | sui-frontend-v2/src/portals/PolicePortal.jsx:78-82 | with the guard consulting the current flag, nothing changes during a status update, or when the notification does not match |
| PolicePortal.NotificationForOtherPlateIgnored | sui-frontend-v2/src/portals/PolicePortal.jsx:56 | a notification for another plate, or when no plate is tracked, leaves the state unchanged |
| PolicePortal.ListenerAgreesWhenIdle | sui-frontend-v2/src/portals/PolicePortal.jsx:53-82 | outside a status update, the listener as written and as intended behave the same |
| PolicePortal.StaleGuardRefetchesDuringUpdate | sui-frontend-v2/src/portals/PolicePortal.jsx:44-82 | with an update in progress and a notification for the tracked plate, the listener as written replaces the result, and the intended one leaves the state as it was |
| PolicePortal.Spread | sui-frontend-v2/src/portals/PolicePortal.jsx:164-167 | an object spread with one override holds the override and keeps every other field of the spread object; an array contributes each element under its decimal index; spreading null, undefined or a number leaves only the override |
| PolicePortal.IndexFields | sui-frontend-v2/src/portals/PolicePortal.jsx:164-167 | the own properties an array gives a spread: each element under its decimal index, and no other key |
| PolicePortal.ApplyStatusReply | sui-frontend-v2/src/portals/PolicePortal.jsx:153-184 | after a resolved update the shown result is, in this order of preference: the reply itself when it is an object with a truthy plate; its truthy `vehicule`; otherwise the previous result with only `statut_police` patched, to the reply's truthy status or else to the requested one; it is always truthy |
| PolicePortal.ApplyStatusReplyServerShapes | sui-frontend-v2/src/portals/PolicePortal.jsx:155-161 | a reply that is a row with a non-empty plate, or that nests a row under `vehicule`, becomes the shown result |
| PolicePortal.ErrorDetail | sui-frontend-v2/src/portals/PolicePortal.jsx:189 | the error tail is the response's truthy `message` as text; a failure with no response, or a response without such a message, gives the communication error |
| PolicePortal.HandleUpdateStatusPolice | sui-frontend-v2/src/portals/PolicePortal.jsx:129-193 | without a stored token: the no-session message, no request, result unchanged; a request is sent exactly when there is a token and a result, to the police route for the result's plate, carrying the new status and the bearer token; a success applies the reply and reports the new status; a failure keeps the result and reports the server's message, or the communication error when there was no response or no message; the updating flag is always reset |
| PolicePortal.PolicePathServed | sui-frontend-v2/src/portals/PolicePortal.jsx:143 | the server's dispatch answers the police update path, for any plate, with the 404 page, leaving the tables unchanged and emitting nothing |
| PolicePortal.PoliceUpdateAgainstServer | sui-frontend-v2/src/portals/PolicePortal.jsx:143-189 | the update goes to the police path for the result's plate, which the server's dispatch answers with its 404 page, changing no table and emitting nothing; the portal keeps its result and reports the communication error |
| PolicePortal.PoliceBadgeMatchesStatus | sui-frontend-v2/src/portals/PolicePortal.jsx:282-287 | the class is `status-expire` exactly for VOLÉ and EN FUITE, `status-intercepted` exactly for INTERCEPTÉ, `status-valide` exactly for NORMAL, and the missing badge exactly for values that are none of the four, null included |
| PolicePortal.Actions | sui-frontend-v2/src/portals/PolicePortal.jsx:297-332 | the offered actions are exactly the four police statuses minus the current one: three buttons for a known status, all four in order otherwise |
| PolicePortal.ActionsOfServerRow | sui-frontend-v2/src/portals/PolicePortal.jsx:297-332 | for a row from the server, the buttons are every police status except the vehicle's own |
| AgencyPortal.HandleSearch | sui-frontend-v2/src/portals/GenericPortal.jsx:15-29 | a search clears error, message and result, then shows the fetched row or an error naming the plate, and ends not loading |
| AgencyPortal.HandleStatusUpdate | sui-frontend-v2/src/portals/GenericPortal.jsx:31-40 | a successful update shows the reply's `vehicule` and the confirmation for the document, keeping the previous error; a failure, including a null reply body, sets the failure text and keeps the result and the message |
| AgencyPortal.OntHandleStatusUpdate | sui-frontend-v2/src/portals/OntPortal.jsx:31-41 | a successful carte-grise update shows the reply's `vehicule`, keeping the previous error; a failure, including a null reply body, sets the failure text and keeps the result and the message; the plate is never changed |
| AgencyPortal.OntIsGeneric | sui-frontend-v2/src/portals/OntPortal.jsx:31-41 | the ONT portal's URL and update behave as the generic portal's under the carte-grise configuration |
| AgencyPortal.ConfigMatchesServer | sui-frontend-v2/src/portals/MtsPortal.jsx:11-13 | each portal's update URL is its document's server route around the plate, reaching that route exactly when the plate is one segment, and the column it displays is the one that route updates |
| AgencyPortal.SubmittableNeverRejected | sui-frontend-v2/src/portals/GenericPortal.jsx:75-76 | both submittable statuses, VALIDE and EXPIRÉ, are in the server's accepted list, so a portal update is never answered 400 |
| AgencyPortal.UpdateAgainstServer | sui-frontend-v2/src/portals/GenericPortal.jsx:33-38 | a button press goes through the server's dispatch: a one-segment plate reaches the document's route, and a stored one with the ledger configured shows the updated row, whose column for the document holds the submitted status; a plate that is not one segment gets the 404 page and changes nothing on the server; every press but the first kind keeps the result and shows the failure text |
| AgencyPortal.RouteReplyShown | sui-frontend-v2/src/portals/GenericPortal.jsx:34-38 | for the answer of its document's route, the portal shows the updated row for a stored plate with the ledger configured, and otherwise keeps the result and shows the failure text |
| AgencyPortal.SearchAgainstServer | sui-frontend-v2/src/portals/OntPortal.jsx:15-29 | searching against the server: an empty plate reaches the list route and shows every row; a plate the single-vehicle route extracts and finds (the plate itself when it is one segment) shows that row; any other plate shows the error naming it |

## Findings

| source | as written | input that shows it | evidently intended | confidence | as-written member | corrected member |
|---|---|---|---|---|---|---|
| sui-frontend-v2/src/portals/PolicePortal.jsx:44-82 | the `vehicle_updated` listener is registered once by an effect with no dependencies, so it calls the first render's `fetchVehicleData`, whose `isUpdatingStatus` is always false | `isUpdatingStatus` true, plate `AB-1234-CD` tracked, notification `{ plaque: "AB-1234-CD" }` arrives: the listener refetches and replaces the result | the guard "no fetch while a manual status update is in progress" also holds for refetches triggered by notifications | medium, not executed | PolicePortal.StaleGuardRefetchesDuringUpdate | PolicePortal.OnVehicleUpdatedIntended |

## Left out

- The ledger itself (`sui-backend/hedera.js` transaction submission, `sui-backend/createTopic.js`): network calls. `logAction` appears only as the audit-call effect and as the missing-credentials throw.
- Express middleware and the Socket.IO server: emits are the `Emit` effects, and there is no delivery model. The browser's CORS preflight for the police portal's authorised PUT is answered by `cors()` for every path, and it is not modelled.
- Wire.NoRoutePage: Express's default 404 page is reduced to its one line `Cannot <verb> <path>`. Its HTML wrapping and escaping are not modelled. The portals read only the page's status.
- The PostgreSQL engine. Database errors (the generic 500 of every catch) are not modelled. Foreign-key checks on `proprietaire_id`, if the schema has them, are not modelled. The list route's rows are given as a parameter that satisfies `Listed`. The owner columns of the GET join (sui-backend/server.js:90-99) are not modelled: the GET answer is the row alone.
- Handlers.GetVehicle: omits the owner columns of the LEFT JOIN, and states only the 200/404 split and the row.
- Handlers.UpdateOwner and Handlers.DeleteOwner take the id as an integer. The text of `:id` is read (`Server.OwnerIdText`) only in the PUT dispatch. PostgreSQL also accepts surrounding whitespace, and in recent versions hexadecimal and underscore-separated digits; these forms are read as unreadable there.
- Vehicle and owner creation (the POST routes), GET `/proprietaires`, GET `/proprietaires/:id` and the dispatch of `/` and `/stats`: no property depends on them, and creation inserts unchecked values.
- Routes.MatchRoute: compares a route's fixed parts exactly, where Express compares them case-insensitively. The portals build every fixed part in lower case, so this changes nothing for the paths they send.
- PolicePortal.SearchAgainstServer: holds for `UrlSafe` plates. For other plates, the browser's URL parsing changes the path before the server sees it: `?` and `#` end the path, `\` becomes `/`, dot segments are collapsed, tab and newline are removed, a space or control at the very end of the URL is stripped, and `%` breaks Express's decoding. Interior spaces and controls are percent-encoded and decoded back; they are excluded only to keep `UrlSafe` simple. That parsing is not modelled.
- AgencyPortal.SearchAgainstServer: holds for `UrlSafe` plates, because the browser's URL parsing of other plates is not modelled.
- AgencyPortal.UpdateAgainstServer: holds for `UrlSafe` plates, because the browser's URL parsing of other plates is not modelled.
- PolicePortal.PoliceUpdateAgainstServer: holds for results whose plate is `UrlSafe`, because the browser's URL parsing of other plates is not modelled.
- AgencyPortal.UpdateAgainstServer, AgencyPortal.SearchAgainstServer and AgencyPortal.ConfigMatchesServer take the request path to be the URL with the API base cut off. That holds when the base is an origin such as `http://localhost:3001`. The generic and ONT portals read `VITE_API_URL` with no fallback (sui-frontend-v2/src/portals/GenericPortal.jsx:5, sui-frontend-v2/src/portals/OntPortal.jsx:6). With the variable unset, the browser resolves `undefined/...` against the page's own URL, and that request is not modelled.
- AgencyPortal.ConfigMatchesServer: states the match of the path as the portal builds it. The browser sends that path unchanged only for `UrlSafe` plates.
- App.RoutePortalKey: `toLowerCase` is modelled on ASCII letters only.
- PolicePortal.Spread: spreading a string (which copies its characters as indexed fields) is read as spreading nothing. The result is never a string when the buttons are shown.
- Wire.Field: reads only the properties of objects. An array's indices and `length` are not read through it; the one place the portals use an array's indices is the police portal's spread, which `PolicePortal.Spread` models.
- Dates are opaque numbers. The police portal's French date formatting is not modelled.
- The 15-second alert timeout, the `vehicule_en_fuite_alerte` listener, socket connection handling, and the interleaving of socket callbacks with React updates are not modelled. Each handler is modelled as one atomic state transition.
- The pure-display portals (EtatPortal, DouanePortal, DashboardPage, LoginPage, DefaultPortal) are not modelled. The three generic portal wrappers appear only as their configurations.

=== FILE: agency_portal.dfy ===
/**
 * The agency portals that manage one document status each. The assurance,
 * mairie and MTS portals are one generic portal given a configuration; the
 * ONT portal is written out separately, with the carte-grise route fixed.
 */
module AgencyPortal {
  import opened Wrappers
  import opened Registry
  import opened Wire
  import Handlers
  import Routes
  import Server

  /** The props a concrete portal passes to the generic portal. */
  datatype Config = Config(portalName: string, documentName: string, apiEndpoint: string, apiSubPath: string, statusField: string)

  const MtsConfig: Config :=
    Config("Portail du Mali Technic System (MTS)", "la Visite Technique", "/mts/vehicules", "visite-technique", "statut_visite_technique")

  const AssuranceConfig: Config :=
    Config("Portail des Agences d'Assurance", "l'Assurance", "/assurance/vehicules", "statut", "statut_assurance")

  const MairieConfig: Config :=
    Config("Portail de la Mairie", "la Vignette", "/mairie/vehicules", "vignette", "statut_vignette")

  datatype State = State(plaque: string, searchResult: Json, loading: bool, error: string, message: string)

  /** The two statuses the portal's buttons submit. */
  const SubmittableStatuses: seq<string> := ["VALIDE", "EXPIRÉ"]

  const UpdateFailedText: string := "Impossible de mettre à jour le statut."

  function NotFoundText(p: string): string
  {
    "Aucun véhicule trouvé pour la plaque : " + p
  }

  function UpdatedText(documentName: string, status: string): string
  {
    "Statut de " + documentName + " mis à jour à '" + status + "'."
  }

  /** `handleSearch`: clears the screen, then shows the GET's result or an error naming the plate. */
  function HandleSearch(s: State, reply: Reply): (r: State)
    ensures !r.loading && r.message == "" && r.plaque == s.plaque
    ensures reply.Resolved? ==> r.searchResult == reply.data && r.error == ""
    ensures reply.Rejected? ==> r.searchResult == JNull && r.error == NotFoundText(s.plaque)
  {
    var cleared := s.(loading := true, error := "", message := "", searchResult := JNull);
    match reply
    case Resolved(data) => cleared.(searchResult := data, loading := false)
    case Rejected(_, _) => cleared.(error := NotFoundText(s.plaque), loading := false)
  }

  /** The URL `handleStatusUpdate` sends its PUT to. */
  function UpdateUrl(api: string, cfg: Config, plaque: string): string
  {
    api + cfg.apiEndpoint + "/" + plaque + "/" + cfg.apiSubPath
  }

  /**
   * `handleStatusUpdate(status)` with the PUT settling as `reply`. Reading
   * `vehicule` off a null body throws into the same catch as a rejection.
   */
  function HandleStatusUpdate(s: State, cfg: Config, status: string, reply: Reply): (r: State)
    ensures r.plaque == s.plaque && r.loading == s.loading
    ensures reply.Resolved? && !Nullish(reply.data) ==>
      && r.searchResult == Field(reply.data, "vehicule")
      && r.message == UpdatedText(cfg.documentName, status)
      && r.error == s.error
    ensures !(reply.Resolved? && !Nullish(reply.data)) ==>
      r.searchResult == s.searchResult && r.message == s.message && r.error == UpdateFailedText
  {
    if reply.Resolved? && !Nullish(reply.data) then
      s.(searchResult := Field(reply.data, "vehicule"), message := UpdatedText(cfg.documentName, status))
    else
      s.(error := UpdateFailedText)
  }

  // ---------------------------------------------------------------------------
  // The ONT portal
  // ---------------------------------------------------------------------------

  /** The ONT portal's update URL, with its route written in. */
  function OntUpdateUrl(api: string, plaque: string): string
  {
    api + "/ont/vehicules/" + plaque + "/carte-grise"
  }

  /** The ONT portal's `handleStatusUpdate`. */
  function OntHandleStatusUpdate(s: State, status: string, reply: Reply): (r: State)
    ensures r.plaque == s.plaque && r.loading == s.loading
    ensures reply.Resolved? && !Nullish(reply.data) ==>
      r.searchResult == Field(reply.data, "vehicule") && r.error == s.error
    ensures !(reply.Resolved? && !Nullish(reply.data)) ==>
      r.searchResult == s.searchResult && r.message == s.message && r.error == UpdateFailedText
  {
    if reply.Resolved? && !Nullish(reply.data) then
      s.(searchResult := Field(reply.data, "vehicule"), message := "Statut de la carte grise mis à jour à '" + status + "'.")
    else
      s.(error := "Impossible de mettre à jour le statut.")
  }

  /** The configuration under which the generic portal behaves as the ONT portal. */
  const OntConfig: Config :=
    Config("Portail de l'Office National des Transports", "la carte grise", "/ont/vehicules", "carte-grise", "statut_carte_grise")

  /** The ONT portal is the generic portal with the carte-grise configuration. */
  lemma OntIsGeneric(s: State, api: string, plaque: string, status: string, reply: Reply)
    ensures OntUpdateUrl(api, plaque) == UpdateUrl(api, OntConfig, plaque)
    ensures OntHandleStatusUpdate(s, status, reply) == HandleStatusUpdate(s, OntConfig, status, reply)
  {
    assert "/ont/vehicules" + "/" == "/ont/vehicules/";
    assert "/" + "carte-grise" == "/carte-grise";
    assert "Statut de " + "la carte grise" + " mis à jour à '" == "Statut de la carte grise mis à jour à '";
  }

  // ---------------------------------------------------------------------------
  // Agreement with the server
  // ---------------------------------------------------------------------------

  /** The portal that manages each document. */
  function ConfigFor(d: Document): Config
  {
    match d
    case CarteGrise => OntConfig
    case Assurance => AssuranceConfig
    case Vignette => MairieConfig
    case VisiteTechnique => MtsConfig
  }

  /** Each portal's URL is its document's server route, and it displays that document's column. */
  lemma ConfigMatchesServer(d: Document, api: string, p: string)
    ensures UpdateUrl(api, ConfigFor(d), p) == api + Routes.DocPath(d, p)
    ensures ConfigFor(d).statusField == ColumnName(d)
    ensures Routes.MatchDocRoute(UpdateUrl(api, ConfigFor(d), p)[|api|..]) ==
              (if Routes.IsSegment(p) then Some((d, p)) else None)
  {
    ConfigUrl(d, api, p);
    var url := UpdateUrl(api, ConfigFor(d), p);
    assert url[|api|..] == Routes.DocPath(d, p);
    Routes.DocRouteRoundTrip(d, p);
  }

  lemma ConfigUrl(d: Document, api: string, p: string)
    ensures UpdateUrl(api, ConfigFor(d), p) == api + Routes.DocPath(d, p)
  {
    var cfg := ConfigFor(d);
    assert cfg.apiEndpoint == Routes.DocRouteBase(d) && cfg.apiSubPath == Routes.DocRouteLeaf(d);
  }

  /** Both buttons submit statuses the server accepts, so the portals never get the 400 answer. */
  lemma SubmittableNeverRejected(d: Document, db: Db, p: Plate, status: string, now: Timestamp, env: Handlers.AuditEnv)
    requires status in SubmittableStatuses
    ensures status in AcceptedStatuses
    ensures Handlers.UpdateDocStatus(d, db, p, Some(status), now, env).response.code != 400
  {
  }

  /**
   * A button press against the server. The PUT reaches the document's route
   * exactly when the plate is one segment; then, for a stored plate with the
   * ledger configured, the portal shows the updated row, whose column for
   * the document holds the submitted status. Every other press keeps the
   * result and shows the failure text; a plate that is not one segment
   * reaches no route and changes nothing on the server. `UrlSafe` plates
   * are those the browser sends as written.
   */
  lemma UpdateAgainstServer(d: Document, db: Db, s: State, api: string, status: string,
                            now: Timestamp, env: Handlers.AuditEnv)
    requires status in SubmittableStatuses && Routes.UrlSafe(s.plaque)
    ensures var url := UpdateUrl(api, ConfigFor(d), s.plaque);
            var out := Server.ServeStatusPut(db, url[|api|..], Some(status), now, env);
            var r := HandleStatusUpdate(s, ConfigFor(d), status, Deliver(out.response));
      && (Routes.IsSegment(s.plaque) ==> out == Handlers.UpdateDocStatus(d, db, s.plaque, Some(status), now, env))
      && (!Routes.IsSegment(s.plaque) ==> out.response.code == 404 && out.db == db && out.effects == [])
      && (Routes.IsSegment(s.plaque) && s.plaque in db.vehicles && env.credentialsSet ==>
            && r.searchResult == VehicleJson(out.db.vehicles[s.plaque])
            && Field(r.searchResult, ConfigFor(d).statusField) == JStr(status)
            && r.message == UpdatedText(ConfigFor(d).documentName, status))
      && (!(Routes.IsSegment(s.plaque) && s.plaque in db.vehicles && env.credentialsSet) ==>
            r.searchResult == s.searchResult && r.error == UpdateFailedText)
  {
    ConfigUrl(d, api, s.plaque);
    var path := Routes.DocPath(d, s.plaque);
    assert UpdateUrl(api, ConfigFor(d), s.plaque)[|api|..] == path;
    Server.DocPathServed(d, db, s.plaque, Some(status), now, env);
    if Routes.IsSegment(s.plaque) {
      RouteReplyShown(d, db, s, status, now, env);
    }
  }

  /** What the portal shows for the answer of its document's route. */
  lemma RouteReplyShown(d: Document, db: Db, s: State, status: string, now: Timestamp, env: Handlers.AuditEnv)
    requires status in SubmittableStatuses
    ensures var out := Handlers.UpdateDocStatus(d, db, s.plaque, Some(status), now, env);
            var r := HandleStatusUpdate(s, ConfigFor(d), status, Deliver(out.response));
      && (s.plaque in db.vehicles && env.credentialsSet ==>
            && r.searchResult == VehicleJson(out.db.vehicles[s.plaque])
            && Field(r.searchResult, ConfigFor(d).statusField) == JStr(status)
            && r.message == UpdatedText(ConfigFor(d).documentName, status))
      && (s.plaque !in db.vehicles || !env.credentialsSet ==>
            r.searchResult == s.searchResult && r.error == UpdateFailedText)
  {
    var out := Handlers.UpdateDocStatus(d, db, s.plaque, Some(status), now, env);
    if s.plaque in db.vehicles && env.credentialsSet {
      var row := out.db.vehicles[s.plaque];
      VehicleJsonColumn(row, d);
      assert Field(BodyJson(out.response.body), "vehicule") == VehicleJson(row);
    }
  }

  /**
   * Searching against the server: an empty plate sends `/vehicules/`, which
   * non-strict routing gives to the list route, so the portal shows every
   * row; a plate Express routes to a stored row shows that row; any other
   * plate shows the error naming it. `UrlSafe` plates are those the browser
   * sends as written.
   */
  lemma SearchAgainstServer(db: Db, listing: seq<Vehicle>, s: State)
    requires Handlers.Listed(db.vehicles, listing) && Routes.UrlSafe(s.plaque)
    ensures var r := HandleSearch(s, Deliver(Server.ServeVehiculesGet(db, listing, "/" + s.plaque)));
            var hit := Routes.MatchVehicleRoute(Routes.VehiclePath(s.plaque));
      && (Routes.IsSegment(s.plaque) ==> hit == Some(s.plaque))
      && (s.plaque == "" ==> r.searchResult == BodyJson(Handlers.RowList(listing)) && r.error == "")
      && (hit.Some? && hit.value in db.vehicles ==> r.searchResult == VehicleJson(db.vehicles[hit.value]) && r.error == "")
      && (s.plaque != "" && !(hit.Some? && hit.value in db.vehicles) ==>
            r.searchResult == JNull && r.error == NotFoundText(s.plaque))
  {
    assert "/vehicules" + ("/" + s.plaque) == Routes.VehiclePath(s.plaque);
    Routes.VehicleRouteRoundTrip(s.plaque);
    Routes.VehiclePathListed(s.plaque);
  }
}

=== FILE: app.dfy ===
/**
 * The client's top level: `checkUser` turns the identity provider's session
 * into the user, the role and the stored token, and `PortalRouter` picks the
 * portal for the role.
 *
 * `toLowerCase` is modelled on ASCII letters only; the seven role names are
 * ASCII.
 */
module App {
  import opened Wrappers

  /**
   * What `fetchAuthSession` yields: a failure (no session, or a session
   * without an id token, where reading the payload throws), or the id token's
   * username, its `cognito:groups` claim (None when the claim is absent) and
   * the token text.
   */
  datatype Session =
    | NoSession
    | SignedIn(username: string, groupsClaim: Option<seq<string>>, idToken: string)

  /** The component state, plus the `token` entry of sessionStorage. */
  datatype AppState = AppState(user: Option<string>, role: Option<string>, loading: bool, storedToken: Option<string>)

  /** The main role: ETAT when present anywhere, else the first group, else none. */
  function ChooseRole(groups: seq<string>): (r: Option<string>)
    ensures "ETAT" in groups ==> r == Some("ETAT")
    ensures "ETAT" !in groups && |groups| > 0 ==> r == Some(groups[0])
    ensures groups == [] ==> r == None
    ensures r.Some? ==> r.value in groups
  {
    if "ETAT" in groups then Some("ETAT")
    else if |groups| > 0 then Some(groups[0])
    else None
  }

  /** `checkUser`, from the state before the call to the state after it. */
  function CheckUser(s: AppState, session: Session): (r: AppState)
    ensures !r.loading
    ensures session.NoSession? ==> r.user == None && r.role == None && r.storedToken == None
    ensures session.SignedIn? ==>
      && r.user == Some(session.username)
      && r.storedToken == Some(session.idToken)
      && r.role == ChooseRole(session.groupsClaim.GetOr([]))
  {
    match session
    case NoSession => AppState(None, None, false, None)
    case SignedIn(name, claim, token) =>
      var groups := claim.GetOr([]);
      AppState(Some(name), ChooseRole(groups), false, Some(token))
  }

  /** A missing group claim is read as no groups: the user signs in without a role. */
  lemma MissingGroupsNoRole(s: AppState, name: string, token: string)
    ensures CheckUser(s, SignedIn(name, None, token)).role == None
    ensures CheckUser(s, SignedIn(name, None, token)).user == Some(name)
  {
  }

  // ---------------------------------------------------------------------------
  // Portal routing
  // ---------------------------------------------------------------------------

  datatype Portal = PolicePortal | DouanePortal | OntPortal | AssurancePortal | MairiePortal | MtsPortal | EtatPortal | DefaultPortal

  function LowerChar(c: char): char
  {
    if 'A' <= c <= 'Z' then (c as int + 32) as char else c
  }

  function UpperChar(c: char): char
  {
    if 'a' <= c <= 'z' then (c as int - 32) as char else c
  }

  function AsciiLower(s: string): (r: string)
    ensures |r| == |s|
    ensures forall i :: 0 <= i < |s| ==> r[i] == LowerChar(s[i])
  {
    if s == [] then [] else [LowerChar(s[0])] + AsciiLower(s[1..])
  }

  function AsciiUpper(s: string): (r: string)
    ensures |r| == |s|
    ensures forall i :: 0 <= i < |s| ==> r[i] == UpperChar(s[i])
  {
    if s == [] then [] else [UpperChar(s[0])] + AsciiUpper(s[1..])
  }

  predicate IsLowerWord(s: string)
  {
    forall i :: 0 <= i < |s| ==> 'a' <= s[i] <= 'z'
  }

  /** Upper-casing a lower-case word and lower-casing it again gives the word back. */
  lemma {:induction false} LowerUpperRoundTrip(s: string)
    requires IsLowerWord(s)
    ensures AsciiLower(AsciiUpper(s)) == s
  {
    if s != [] {
      assert IsLowerWord(s[1..]) by {
        forall i | 0 <= i < |s[1..]|
          ensures 'a' <= s[1..][i] <= 'z'
        {
          assert s[1..][i] == s[i + 1];
        }
      }
      LowerUpperRoundTrip(s[1..]);
      assert AsciiUpper(s)[1..] == AsciiUpper(s[1..]);
    }
  }

  /** The lower-case role each portal is selected by; none for the default portal. */
  function RoleKey(p: Portal): Option<string>
  {
    match p
    case PolicePortal => Some("police")
    case DouanePortal => Some("douane")
    case OntPortal => Some("ont")
    case AssurancePortal => Some("assurance")
    case MairiePortal => Some("mairie")
    case MtsPortal => Some("mts")
    case EtatPortal => Some("etat")
    case DefaultPortal => None
  }

  /** `PortalRouter`: a falsy role becomes '', which no case matches. */
  function RoutePortal(role: Option<string>): Portal
  {
    var key := if role.Some? && role.value != "" then AsciiLower(role.value) else "";
    if key == "police" then PolicePortal
    else if key == "douane" then DouanePortal
    else if key == "ont" then OntPortal
    else if key == "assurance" then AssurancePortal
    else if key == "mairie" then MairiePortal
    else if key == "mts" then MtsPortal
    else if key == "etat" then EtatPortal
    else DefaultPortal
  }

  /** The seven lower-case role names the router knows. */
  const KnownRoleKeys: set<string> := {"police", "douane", "ont", "assurance", "mairie", "mts", "etat"}

  /** Lower-casing leaves a lower-case word as it is. */
  lemma {:induction false} AsciiLowerOfLower(s: string)
    requires IsLowerWord(s)
    ensures AsciiLower(s) == s
  {
    if s != [] {
      assert IsLowerWord(s[1..]) by {
        forall i | 0 <= i < |s[1..]|
          ensures 'a' <= s[1..][i] <= 'z'
        {
          assert s[1..][i] == s[i + 1];
        }
      }
      AsciiLowerOfLower(s[1..]);
    }
  }

  /**
   * A role reaches a named portal exactly when its lower-cased form is that
   * portal's key; every other role, and no role, reaches the default portal.
   */
  lemma RoutePortalKey(role: Option<string>, p: Portal)
    ensures RoutePortal(role) == DefaultPortal <==> role.None? || AsciiLower(role.value) !in KnownRoleKeys
    ensures p != DefaultPortal ==> (RoutePortal(role) == p <==> role.Some? && RoleKey(p) == Some(AsciiLower(role.value)))
  {
  }

  /** Routing ignores letter case: a role spelled in capitals reaches the same portal. */
  lemma RoutePortalIgnoresCase(p: Portal)
    requires p != DefaultPortal
    ensures RoutePortal(RoleKey(p)) == p
    ensures RoutePortal(Some(AsciiUpper(RoleKey(p).value))) == p
  {
    RoutePortalOwnKey(p);
    RoutePortalUpperKey(p);
  }

  lemma RoutePortalOwnKey(p: Portal)
    requires p != DefaultPortal
    ensures RoutePortal(RoleKey(p)) == p
  {
    AsciiLowerOfLower(RoleKey(p).value);
    RoutePortalKey(RoleKey(p), p);
  }

  lemma RoutePortalUpperKey(p: Portal)
    requires p != DefaultPortal
    ensures RoutePortal(Some(AsciiUpper(RoleKey(p).value))) == p
  {
    LowerUpperRoundTrip(RoleKey(p).value);
    RoutePortalKey(Some(AsciiUpper(RoleKey(p).value)), p);
  }

  /** A user in the ETAT group sees the state dashboard, whatever their other groups. */
  lemma EtatGroupWins(s: AppState, name: string, groups: seq<string>, token: string)
    requires "ETAT" in groups
    ensures RoutePortal(CheckUser(s, SignedIn(name, Some(groups), token)).role) == EtatPortal
  {
    RoutePortalIgnoresCase(EtatPortal);
  }

  // ---------------------------------------------------------------------------
  // The rendered screen
  // ---------------------------------------------------------------------------

  datatype Screen = LoadingScreen | LoginPage | PortalScreen(portal: Portal)

  /** What `App` renders for a state. */
  function View(s: AppState): Screen
  {
    if s.loading then LoadingScreen
    else if s.user.None? then LoginPage
    else PortalScreen(RoutePortal(s.role))
  }

  /** After `checkUser`, a failed session shows the login page and a session shows its role's portal. */
  lemma CheckUserThenView(s: AppState, session: Session)
    ensures session.NoSession? ==> View(CheckUser(s, session)) == LoginPage
    ensures session.SignedIn? ==>
      View(CheckUser(s, session)) == PortalScreen(RoutePortal(ChooseRole(session.groupsClaim.GetOr([]))))
  {
  }
}

=== FILE: handlers.dfy ===
/**
 * The Express route handlers of the registry server, each as a pure function
 * from the database state and the request to an Outcome: the HTTP response,
 * the database state afterwards, and the side effects in the order the
 * handler performs them (Socket.IO emits and calls to the audit logger).
 *
 * The audit logger throws when the ledger credentials are not configured;
 * that throw happens after the UPDATE and the emit, lands in the handler's
 * catch, and turns the response into a 500 while the row change and the
 * event stay. Network failures inside the logger are swallowed by it and are
 * invisible here.
 */
module Handlers {
  import opened Wrappers
  import opened Registry

  /** The only Socket.IO event these routes emit: `vehicle_updated { plaque }`. */
  datatype Event = VehicleUpdated(plaque: Plate)

  datatype Effect = Emit(event: Event) | AuditCall(action: string)

  /**
   * JSON bodies the routes send, the plain-text 500 body, and the page
   * Express's default handler sends for a path no route matches.
   */
  datatype Body =
    | Message(text: string)
    | RowBody(row: Vehicle)
    | RowList(rows: seq<Vehicle>)
    | WithVehicle(text: string, vehicule: Vehicle)
    | WithOwner(text: string, data: Owner)
    | ErrorText(text: string)
    | NoRoute(verb: string, path: string)

  datatype Response = Response(code: int, body: Body)

  datatype Outcome = Outcome(response: Response, db: Db, effects: seq<Effect>)

  /**
   * Whether `logAction` gets past the code before its own try block: the
   * check that both ledger variables are set and `client.setOperator`,
   * which throws on an ill-formed account id or key. A throw there reaches
   * the route's catch; failures inside the try are swallowed.
   */
  datatype AuditEnv = AuditEnv(credentialsSet: bool)

  /** The body of every caught exception. */
  const ServerError: Response := Response(500, ErrorText("Erreur du serveur"))

  /** The events among the effects, in emission order. */
  function Events(effects: seq<Effect>): (es: seq<Event>)
    ensures |es| <= |effects|
    ensures forall e :: e in es <==> Emit(e) in effects
  {
    if effects == [] then []
    else
      var rest := Events(effects[1..]);
      match effects[0]
      case Emit(e) => [e] + rest
      case AuditCall(_) => rest
  }

  /**
   * The tail shared by the mutating vehicle routes once the row is written:
   * the audit call is made and, if it throws, the response becomes a 500.
   */
  function AfterAudit(db: Db, effects: seq<Effect>, env: AuditEnv, ok: Response): (r: Outcome)
    ensures r.db == db && r.effects == effects
    ensures env.credentialsSet ==> r.response == ok
    ensures !env.credentialsSet ==> r.response == ServerError
  {
    if env.credentialsSet then Outcome(ok, db, effects) else Outcome(ServerError, db, effects)
  }

  /** Only row `p` of `vehicules` may differ; its key is kept; `proprietaires` is untouched. */
  ghost predicate OnlyRowChanged(before: Db, after: Db, p: Plate)
  {
    && after.owners == before.owners
    && after.vehicles.Keys == before.vehicles.Keys
    && (forall q :: q in before.vehicles && q != p ==> after.vehicles[q] == before.vehicles[q])
  }

  // ---------------------------------------------------------------------------
  // The four document-status routes
  // ---------------------------------------------------------------------------

  /** Prefix of each route's audit action string. */
  function AuditTag(d: Document): string
  {
    match d
    case CarteGrise => "CARTE_GRISE_UPDATE"
    case Assurance => "ASSURANCE_UPDATE"
    case Vignette => "VIGNETTE_UPDATE"
    case VisiteTechnique => "VISITE_TECHNIQUE_UPDATE"
  }

  /** How each route names its document in the success message. */
  function DocLabel(d: Document): string
  {
    match d
    case CarteGrise => "la carte grise"
    case Assurance => "l'assurance"
    case Vignette => "la vignette"
    case VisiteTechnique => "la visite technique"
  }

  function StatusAuditAction(d: Document, p: Plate, status: string): string
  {
    AuditTag(d) + ": Plaque=" + p + ", Statut=" + status
  }

  function StatusUpdatedMessage(d: Document, status: string): string
  {
    "Statut de " + DocLabel(d) + " mis à jour à '" + status + "'"
  }

  /**
   * PUT on the route of document `d` (carte grise, assurance, vignette or
   * visite technique) for plate `p` with body field `nouveau_statut` = `raw`.
   * `now` is the database's CURRENT_TIMESTAMP.
   */
  function UpdateDocStatus(d: Document, db: Db, p: Plate, raw: Option<string>, now: Timestamp, env: AuditEnv): (r: Outcome)
    // Rejected statuses: 400 before any table access.
    ensures r.response.code == 400 <==> ParseDocStatus(raw).None?
    ensures ParseDocStatus(raw).None? ==>
      r.response == Response(400, Message("Statut non valide.")) && r.db == db && r.effects == []
    // Unknown plate: 404, nothing changes, nothing is emitted.
    ensures ParseDocStatus(raw).Some? && p !in db.vehicles ==>
      r.response == Response(404, Message("Véhicule non trouvé")) && r.db == db && r.effects == []
    // Known plate: one column of one row changes, plus its timestamp.
    ensures ParseDocStatus(raw).Some? && p in db.vehicles ==>
      && p in r.db.vehicles
      && OnlyRowChanged(db, r.db, p)
      && AgreeOutside(db.vehicles[p], r.db.vehicles[p], d)
      && GetDoc(r.db.vehicles[p], d) == ParseDocStatus(raw).value
      && r.db.vehicles[p].dateModification == now
      && r.effects == [Emit(VehicleUpdated(p)), AuditCall(StatusAuditAction(d, p, raw.value))]
      && (env.credentialsSet ==>
            r.response == Response(200, WithVehicle(StatusUpdatedMessage(d, raw.value), r.db.vehicles[p])))
      && (!env.credentialsSet ==> r.response == ServerError)
  {
    match ParseDocStatus(raw)
    case None => Outcome(Response(400, Message("Statut non valide.")), db, [])
    case Some(s) =>
      if p !in db.vehicles then
        Outcome(Response(404, Message("Véhicule non trouvé")), db, [])
      else
        var row := SetDoc(db.vehicles[p], d, s).(dateModification := now);
        var db' := db.(vehicles := db.vehicles[p := row]);
        var effects := [Emit(VehicleUpdated(p)), AuditCall(StatusAuditAction(d, p, raw.value))];
        AfterAudit(db', effects, env, Response(200, WithVehicle(StatusUpdatedMessage(d, raw.value), row)))
  }

  /** A status route emits an event exactly when it wrote a row, and the event names the plate. */
  lemma UpdateDocStatusEvents(d: Document, db: Db, p: Plate, raw: Option<string>, now: Timestamp, env: AuditEnv)
    ensures var r := UpdateDocStatus(d, db, p, raw, now, env);
      && (r.db != db ==> Events(r.effects) == [VehicleUpdated(p)])
      && (ParseDocStatus(raw).Some? && p in db.vehicles <==> Events(r.effects) == [VehicleUpdated(p)])
      && (ParseDocStatus(raw).None? || p !in db.vehicles <==> Events(r.effects) == [])
  {
    var r := UpdateDocStatus(d, db, p, raw, now, env);
    if ParseDocStatus(raw).Some? && p in db.vehicles {
      assert r.effects[1..][1..] == [];
    }
  }

  /** Resubmitting the same status changes nothing but the timestamp, and answers the same code. */
  lemma UpdateDocStatusIdempotent(d: Document, db: Db, p: Plate, raw: Option<string>, now1: Timestamp, now2: Timestamp, env: AuditEnv)
    ensures var r1 := UpdateDocStatus(d, db, p, raw, now1, env);
            var r2 := UpdateDocStatus(d, r1.db, p, raw, now2, env);
      && r2.response.code == r1.response.code
      && (ParseDocStatus(raw).Some? && p in db.vehicles ==>
            && GetDoc(r2.db.vehicles[p], d) == GetDoc(r1.db.vehicles[p], d)
            && r2.db == r1.db.(vehicles := r1.db.vehicles[p := r1.db.vehicles[p].(dateModification := now2)]))
  {
  }

  /**
   * The audit logger's throw only changes the answer: the row written and
   * the event emitted are the same as when the ledger is configured.
   */
  lemma AuditFailureKeepsUpdate(d: Document, db: Db, p: Plate, raw: Option<string>, now: Timestamp)
    requires ParseDocStatus(raw).Some? && p in db.vehicles
    ensures var ok := UpdateDocStatus(d, db, p, raw, now, AuditEnv(true));
            var failed := UpdateDocStatus(d, db, p, raw, now, AuditEnv(false));
      && failed.db == ok.db
      && failed.effects == ok.effects
      && Events(failed.effects) == [VehicleUpdated(p)]
      && ok.response.code == 200 && failed.response.code == 500
  {
    UpdateDocStatusEvents(d, db, p, raw, now, AuditEnv(false));
  }

  /**
   * Status updates on two different plates give the same tables in either
   * order, whatever timestamps the two requests get.
   */
  lemma UpdateDocStatusCommute(d: Document, e: Document, db: Db, p: Plate, q: Plate,
                               raw1: Option<string>, raw2: Option<string>, now1: Timestamp, now2: Timestamp, env: AuditEnv)
    requires p != q
    ensures UpdateDocStatus(e, UpdateDocStatus(d, db, p, raw1, now1, env).db, q, raw2, now2, env).db
         == UpdateDocStatus(d, UpdateDocStatus(e, db, q, raw2, now2, env).db, p, raw1, now1, env).db
  {
    var a := UpdateDocStatus(d, db, p, raw1, now1, env).db;
    var b := UpdateDocStatus(e, db, q, raw2, now2, env).db;
    UpdateDocStatusWrite(d, db, p, raw1, now1, env);
    UpdateDocStatusWrite(e, db, q, raw2, now2, env);
    UpdateDocStatusWrite(e, a, q, raw2, now2, env);
    UpdateDocStatusWrite(d, b, p, raw1, now1, env);
    if ParseDocStatus(raw1).Some? && p in db.vehicles && ParseDocStatus(raw2).Some? && q in db.vehicles {
      assert a.vehicles[q] == db.vehicles[q];
      assert b.vehicles[p] == db.vehicles[p];
    }
  }

  /**
   * Each agency owns its column: updates of two different documents of one
   * row leave the same row in either order, except `date_modification`,
   * which holds the timestamp of whichever request came second.
   */
  lemma UpdateDocStatusCommuteSameRow(d: Document, e: Document, db: Db, p: Plate,
                                      raw1: Option<string>, raw2: Option<string>, now1: Timestamp, now2: Timestamp, env: AuditEnv)
    requires d != e && ParseDocStatus(raw1).Some? && ParseDocStatus(raw2).Some? && p in db.vehicles
    ensures var de := UpdateDocStatus(e, UpdateDocStatus(d, db, p, raw1, now1, env).db, p, raw2, now2, env).db;
            var ed := UpdateDocStatus(d, UpdateDocStatus(e, db, p, raw2, now2, env).db, p, raw1, now1, env).db;
      && p in de.vehicles && p in ed.vehicles
      && de.vehicles[p].dateModification == now2 && ed.vehicles[p].dateModification == now1
      && de.vehicles[p].(dateModification := now1) == ed.vehicles[p]
      && de.owners == ed.owners
      && de.vehicles.Keys == ed.vehicles.Keys
      && (forall r :: r in de.vehicles && r != p ==> de.vehicles[r] == ed.vehicles[r])
  {
    var a := UpdateDocStatus(d, db, p, raw1, now1, env).db;
    var b := UpdateDocStatus(e, db, p, raw2, now2, env).db;
    UpdateDocStatusWrite(d, db, p, raw1, now1, env);
    UpdateDocStatusWrite(e, db, p, raw2, now2, env);
    UpdateDocStatusWrite(e, a, p, raw2, now2, env);
    UpdateDocStatusWrite(d, b, p, raw1, now1, env);
    var s1 := ParseDocStatus(raw1).value;
    var s2 := ParseDocStatus(raw2).value;
    SetDocCommute(db.vehicles[p], d, s1, e, s2);
    assert SetDoc(SetDoc(db.vehicles[p], d, s1).(dateModification := now1), e, s2)
        == SetDoc(SetDoc(db.vehicles[p], d, s1), e, s2).(dateModification := now1);
    assert SetDoc(SetDoc(db.vehicles[p], e, s2).(dateModification := now2), d, s1)
        == SetDoc(SetDoc(db.vehicles[p], e, s2), d, s1).(dateModification := now2);
  }

  /** The table a status route leaves behind, in closed form. */
  lemma UpdateDocStatusWrite(d: Document, db: Db, p: Plate, raw: Option<string>, now: Timestamp, env: AuditEnv)
    ensures UpdateDocStatus(d, db, p, raw, now, env).db
         == if ParseDocStatus(raw).Some? && p in db.vehicles
            then db.(vehicles := db.vehicles[p := SetDoc(db.vehicles[p], d, ParseDocStatus(raw).value).(dateModification := now)])
            else db
  {
  }

  // ---------------------------------------------------------------------------
  // Generic vehicle routes
  // ---------------------------------------------------------------------------

  /** GET /vehicules/:plaque, without the owner columns of the join. */
  function GetVehicle(db: Db, p: Plate): (r: Response)
    ensures r.code == 200 || r.code == 404
    ensures r.code == 200 <==> p in db.vehicles
    ensures p in db.vehicles ==> r.body == RowBody(db.vehicles[p])
    ensures p !in db.vehicles ==> r.body == Message("Véhicule non trouvé")
  {
    if p in db.vehicles then Response(200, RowBody(db.vehicles[p]))
    else Response(404, Message("Véhicule non trouvé"))
  }

  /** A GET after a successful status update shows the very row the PUT answered with. */
  lemma GetAfterStatusUpdate(d: Document, db: Db, p: Plate, raw: Option<string>, now: Timestamp)
    requires ParseDocStatus(raw).Some? && p in db.vehicles
    ensures var put := UpdateDocStatus(d, db, p, raw, now, AuditEnv(true));
      && put.response.body.WithVehicle?
      && GetVehicle(put.db, p) == Response(200, RowBody(put.response.body.vehicule))
      && GetDoc(put.response.body.vehicule, d) == ParseDocStatus(raw).value
  {
  }

  /**
   * The rows `SELECT * FROM vehicules ORDER BY date_creation DESC` may
   * return: every row of the table once, newest first. Rows created at the
   * same instant come in an order the database chooses.
   */
  predicate Listed(t: VehicleTable, rows: seq<Vehicle>)
  {
    && (forall i :: 0 <= i < |rows| ==> rows[i].plaque in t && t[rows[i].plaque] == rows[i])
    && (forall p :: p in t ==> exists i :: 0 <= i < |rows| && rows[i].plaque == p)
    && (forall i, j :: 0 <= i < j < |rows| ==> rows[i].plaque != rows[j].plaque)
    && (forall i, j :: 0 <= i < j < |rows| ==> rows[i].dateCreation >= rows[j].dateCreation)
  }

  /** The plates of a list of rows. */
  function Plates(rows: seq<Vehicle>): set<Plate>
  {
    set i | 0 <= i < |rows| :: rows[i].plaque
  }

  /** Rows with pairwise different plates have as many plates as rows. */
  lemma {:induction false} PlatesCard(rows: seq<Vehicle>)
    requires forall i, j :: 0 <= i < j < |rows| ==> rows[i].plaque != rows[j].plaque
    ensures |Plates(rows)| == |rows|
  {
    if rows != [] {
      var rest := rows[1..];
      PlatesCard(rest);
      assert Plates(rows) == {rows[0].plaque} + Plates(rest) by {
        forall x | x in Plates(rows) ensures x in {rows[0].plaque} + Plates(rest) {
          var i :| 0 <= i < |rows| && rows[i].plaque == x;
          if i > 0 { assert rest[i - 1] == rows[i]; }
        }
        forall x | x in Plates(rest) ensures x in Plates(rows) {
          var i :| 0 <= i < |rest| && rest[i].plaque == x;
          assert rows[i + 1] == rest[i];
        }
      }
      assert rows[0].plaque !in Plates(rest);
    }
  }

  /** GET /vehicules: every row of the table, once each, newest first. */
  function ListVehicles(db: Db, listing: seq<Vehicle>): (r: Response)
    requires Listed(db.vehicles, listing)
    ensures r.code == 200 && r.body.RowList?
    ensures |r.body.rows| == |db.vehicles|
    ensures forall p :: p in db.vehicles ==> db.vehicles[p] in r.body.rows
    ensures Listed(db.vehicles, r.body.rows)
  {
    PlatesCard(listing);
    assert Plates(listing) == db.vehicles.Keys;
    forall p | p in db.vehicles
      ensures db.vehicles[p] in listing
    {
      var i :| 0 <= i < |listing| && listing[i].plaque == p;
    }
    Response(200, RowList(listing))
  }

  /** The body of PUT /vehicules/:plaque; absent fields become NULL. */
  datatype VehiclePatch = VehiclePatch(couleur: Option<string>, statutGeneral: Option<string>, proprietaireId: Option<OwnerId>)

  /** PUT /vehicules/:plaque: overwrites three columns without checking their values. */
  function UpdateVehicle(db: Db, p: Plate, patch: VehiclePatch, now: Timestamp, env: AuditEnv): (r: Outcome)
    ensures p !in db.vehicles ==>
      r.response == Response(404, Message("Impossible de mettre à jour : Véhicule non trouvé"))
      && r.db == db && r.effects == []
    ensures p in db.vehicles ==>
      && p in r.db.vehicles
      && OnlyRowChanged(db, r.db, p)
      && r.db.vehicles[p] == db.vehicles[p].(couleur := patch.couleur, statutGeneral := patch.statutGeneral,
                                             proprietaireId := patch.proprietaireId, dateModification := now)
      && r.effects == [Emit(VehicleUpdated(p)), AuditCall("VEHICULE_UPDATE: Plaque=" + p)]
      && (env.credentialsSet ==>
            r.response == Response(200, WithVehicle("Véhicule mis à jour avec succès", r.db.vehicles[p])))
      && (!env.credentialsSet ==> r.response == ServerError)
  {
    if p !in db.vehicles then
      Outcome(Response(404, Message("Impossible de mettre à jour : Véhicule non trouvé")), db, [])
    else
      var v := db.vehicles[p];
      var row := v.(couleur := patch.couleur, statutGeneral := patch.statutGeneral,
                    proprietaireId := patch.proprietaireId, dateModification := now);
      var db' := db.(vehicles := db.vehicles[p := row]);
      AfterAudit(db', [Emit(VehicleUpdated(p)), AuditCall("VEHICULE_UPDATE: Plaque=" + p)], env,
                 Response(200, WithVehicle("Véhicule mis à jour avec succès", row)))
  }

  /** PUT /vehicules/:plaque leaves every document status and the police status alone. */
  lemma UpdateVehicleKeepsStatuses(db: Db, p: Plate, patch: VehiclePatch, now: Timestamp, env: AuditEnv)
    requires p in db.vehicles
    ensures var r := UpdateVehicle(db, p, patch, now, env);
      && (forall d :: GetDoc(r.db.vehicles[p], d) == GetDoc(db.vehicles[p], d))
      && r.db.vehicles[p].statutPolice == db.vehicles[p].statutPolice
      && r.db.vehicles[p].plaque == db.vehicles[p].plaque
  {
  }

  /** DELETE /vehicules/:plaque: removes the row and answers with it; emits nothing. */
  function DeleteVehicle(db: Db, p: Plate): (r: Outcome)
    ensures r.effects == []
    ensures r.db.owners == db.owners
    ensures p !in db.vehicles ==>
      r.response == Response(404, Message("Impossible de supprimer : Véhicule non trouvé")) && r.db == db
    ensures p in db.vehicles ==>
      && r.response == Response(200, WithVehicle("Véhicule supprimé avec succès", db.vehicles[p]))
      && r.db.vehicles.Keys == db.vehicles.Keys - {p}
      && (forall q :: q in r.db.vehicles ==> r.db.vehicles[q] == db.vehicles[q])
      && |r.db.vehicles| == |db.vehicles| - 1
  {
    if p !in db.vehicles then
      Outcome(Response(404, Message("Impossible de supprimer : Véhicule non trouvé")), db, [])
    else
      var t := db.vehicles - {p};
      assert t.Keys == db.vehicles.Keys - {p};
      Outcome(Response(200, WithVehicle("Véhicule supprimé avec succès", db.vehicles[p])), db.(vehicles := t), [])
  }

  /** After a successful delete the plate is gone: a second delete and a GET both answer 404. */
  lemma DeleteThenNotFound(db: Db, p: Plate)
    ensures var r := DeleteVehicle(db, p);
      && DeleteVehicle(r.db, p).response.code == 404
      && GetVehicle(r.db, p).code == 404
  {
  }

  // ---------------------------------------------------------------------------
  // Owner routes
  // ---------------------------------------------------------------------------

  /** The body of PUT /proprietaires/:id; absent fields become NULL. */
  datatype OwnerPatch = OwnerPatch(adresse: Option<string>, telephone: Option<string>, email: Option<string>)

  /** PUT /proprietaires/:id: overwrites the contact columns; no event, no audit. */
  function UpdateOwner(db: Db, id: OwnerId, patch: OwnerPatch): (r: Outcome)
    ensures r.effects == []
    ensures r.db.vehicles == db.vehicles
    ensures id !in db.owners ==>
      r.response == Response(404, Message("Impossible de mettre à jour : Propriétaire non trouvé")) && r.db == db
    ensures id in db.owners ==>
      && r.db.owners.Keys == db.owners.Keys
      && (forall j :: j in db.owners && j != id ==> r.db.owners[j] == db.owners[j])
      && r.db.owners[id] == db.owners[id].(adresse := patch.adresse, telephone := patch.telephone, email := patch.email)
      && r.response == Response(200, WithOwner("Propriétaire mis à jour", r.db.owners[id]))
  {
    if id !in db.owners then
      Outcome(Response(404, Message("Impossible de mettre à jour : Propriétaire non trouvé")), db, [])
    else
      var row := db.owners[id].(adresse := patch.adresse, telephone := patch.telephone, email := patch.email);
      Outcome(Response(200, WithOwner("Propriétaire mis à jour", row)), db.(owners := db.owners[id := row]), [])
  }

  /**
   * DELETE /proprietaires/:id: removes the owner only. Vehicles that
   * referenced it keep their `proprietaire_id`.
   */
  function DeleteOwner(db: Db, id: OwnerId): (r: Outcome)
    ensures r.effects == []
    ensures r.db.vehicles == db.vehicles
    ensures id !in db.owners ==>
      r.response == Response(404, Message("Impossible de supprimer : Propriétaire non trouvé")) && r.db == db
    ensures id in db.owners ==>
      && r.response == Response(200, WithOwner("Propriétaire supprimé", db.owners[id]))
      && r.db.owners.Keys == db.owners.Keys - {id}
      && (forall j :: j in r.db.owners ==> r.db.owners[j] == db.owners[j])
  {
    if id !in db.owners then
      Outcome(Response(404, Message("Impossible de supprimer : Propriétaire non trouvé")), db, [])
    else
      var t := db.owners - {id};
      assert t.Keys == db.owners.Keys - {id};
      Outcome(Response(200, WithOwner("Propriétaire supprimé", db.owners[id])), db.(owners := t), [])
  }

  /** The status routes keep primary keys and rows in agreement. */
  lemma UpdateDocStatusKeepsWellKeyed(d: Document, db: Db, p: Plate, raw: Option<string>, now: Timestamp, env: AuditEnv)
    requires WellKeyed(db)
    ensures WellKeyed(UpdateDocStatus(d, db, p, raw, now, env).db)
  {
    UpdateDocStatusWrite(d, db, p, raw, now, env);
  }

  /** The generic vehicle and owner routes keep primary keys and rows in agreement. */
  lemma CrudKeepsWellKeyed(db: Db, p: Plate, vp: VehiclePatch, id: OwnerId, op: OwnerPatch, now: Timestamp, env: AuditEnv)
    requires WellKeyed(db)
    ensures WellKeyed(UpdateVehicle(db, p, vp, now, env).db)
    ensures WellKeyed(DeleteVehicle(db, p).db)
    ensures WellKeyed(UpdateOwner(db, id, op).db)
    ensures WellKeyed(DeleteOwner(db, id).db)
  {
  }
}

=== FILE: police_portal.dfy ===
/**
 * The police portal's logic: searching a plate, refetching when the server
 * announces a change to the tracked plate, the police-status update and its
 * response handling, the status badge and the action buttons.
 *
 * React state is a value; each handler maps the state it closes over to the
 * state it leaves. `tracked` is `currentPlaqueRef.current`.
 */
module PolicePortal {
  import opened Wrappers
  import opened Registry
  import opened Wire
  import Handlers
  import Routes
  import Server

  datatype State = State(
    plaque: string,
    searchResult: Json,
    loading: bool,
    error: string,
    isUpdatingStatus: bool,
    message: string,
    tracked: Option<string>)

  const Initial: State := State("", JNull, false, "", false, "", None)

  function NotFoundText(p: string): string
  {
    "Aucun véhicule trouvé pour la plaque : " + p
  }

  function LoadFailedText(p: string): string
  {
    "Impossible de charger les données pour la plaque : " + p
  }

  const NoSessionText: string := "Erreur : Utilisateur non connecté ou session expirée. Veuillez vous reconnecter."

  const CommunicationError: string := "Erreur de communication avec le serveur."

  /**
   * `fetchVehicleData(p)` as run by a closure that saw `updatingSeen` as
   * its `isUpdatingStatus`, with the GET settling as `reply`.
   */
  function FetchVehicleData(s: State, updatingSeen: bool, p: string, reply: Reply): (r: State)
    ensures updatingSeen ==> r == s
    ensures !updatingSeen && reply.Resolved? ==>
      r == s.(searchResult := reply.data, tracked := Some(p), error := "")
    ensures !updatingSeen && reply.Rejected? ==>
      && r.searchResult == JNull && r.tracked == None
      && r.error == (if reply.status == Some(404) then NotFoundText(p) else LoadFailedText(p))
    ensures r.isUpdatingStatus == s.isUpdatingStatus && r.plaque == s.plaque && r.message == s.message
  {
    if updatingSeen then s
    else
      match reply
      case Resolved(data) => s.(searchResult := data, tracked := Some(p), error := "")
      case Rejected(status, _) =>
        s.(error := if status == Some(404) then NotFoundText(p) else LoadFailedText(p),
           searchResult := JNull, tracked := None)
  }

  /** `handleSearch`: a search on an empty plate does nothing. */
  function HandleSearch(s: State, reply: Reply): (r: State)
    ensures s.plaque == "" ==> r == s
    ensures s.plaque != "" ==> !r.loading && r.message == s.message && r.isUpdatingStatus == s.isUpdatingStatus
    ensures s.plaque != "" && !s.isUpdatingStatus && reply.Resolved? ==>
      r.searchResult == reply.data && r.tracked == Some(s.plaque) && r.error == ""
    ensures s.plaque != "" && !s.isUpdatingStatus && reply.Rejected? ==>
      && r.searchResult == JNull && r.tracked == None
      && r.error == (if reply.status == Some(404) then NotFoundText(s.plaque) else LoadFailedText(s.plaque))
    // During a status update the fetch is skipped, after the state was already cleared.
    ensures s.plaque != "" && s.isUpdatingStatus ==>
      r.searchResult == JNull && r.tracked == Some(s.plaque) && r.error == ""
  {
    if s.plaque == "" then s
    else
      var cleared := s.(loading := true, error := "", searchResult := JNull, tracked := Some(s.plaque));
      FetchVehicleData(cleared, s.isUpdatingStatus, s.plaque, reply).(loading := false)
  }

  /**
   * Searching against the server: the GET goes to `/vehicules/<plate>`,
   * which Express routes to the single-vehicle route when the plate is one
   * segment, possibly followed by a slash. A plate it routes to a stored
   * row shows that row; any other plate gets a 404, from the route or from
   * Express, and shows the not-found text. `UrlSafe` plates are those the
   * browser sends as written.
   */
  lemma SearchAgainstServer(s: State, db: Db, listing: seq<Vehicle>)
    requires Handlers.Listed(db.vehicles, listing) && Routes.UrlSafe(s.plaque)
    ensures var r := HandleSearch(s, Deliver(Server.ServeVehiculesGet(db, listing, "/" + s.plaque)));
            var hit := Routes.MatchVehicleRoute(Routes.VehiclePath(s.plaque));
      && (Routes.IsSegment(s.plaque) ==> hit == Some(s.plaque))
      && (s.plaque != "" && !s.isUpdatingStatus && hit.Some? && hit.value in db.vehicles ==>
            r.searchResult == VehicleJson(db.vehicles[hit.value]) && r.error == "" && r.tracked == Some(s.plaque))
      && (s.plaque != "" && !s.isUpdatingStatus && !(hit.Some? && hit.value in db.vehicles) ==>
            r.searchResult == JNull && r.error == NotFoundText(s.plaque) && r.tracked == None)
  {
    assert "/vehicules" + ("/" + s.plaque) == Routes.VehiclePath(s.plaque);
    Routes.VehicleRouteRoundTrip(s.plaque);
    Routes.VehiclePathListed(s.plaque);
  }

  // ---------------------------------------------------------------------------
  // Refetch on `vehicle_updated`
  // ---------------------------------------------------------------------------

  /** The listener's test: a plate is tracked and the notification names that plate. */
  predicate ShouldRefetch(tracked: Option<string>, notified: Json)
  {
    tracked.Some? && Truthy(JStr(tracked.value)) && notified == JStr(tracked.value)
  }

  /**
   * The `vehicle_updated` listener as written. It is registered once, by an
   * effect with no dependencies, so the `fetchVehicleData` it calls is the
   * first render's, which saw `isUpdatingStatus` false.
   */
  function OnVehicleUpdated(s: State, notified: Json, reply: Reply): (r: State)
    ensures !ShouldRefetch(s.tracked, notified) ==> r == s
    ensures ShouldRefetch(s.tracked, notified) ==> r == FetchVehicleData(s, false, s.tracked.value, reply)
  {
    if ShouldRefetch(s.tracked, notified) then FetchVehicleData(s, false, notified.s, reply) else s
  }

  /** The listener as the guard in `fetchVehicleData` intends it: it consults the current flag. */
  function OnVehicleUpdatedIntended(s: State, notified: Json, reply: Reply): (r: State)
    ensures s.isUpdatingStatus ==> r == s
    ensures !ShouldRefetch(s.tracked, notified) ==> r == s
  {
    if ShouldRefetch(s.tracked, notified) then FetchVehicleData(s, s.isUpdatingStatus, notified.s, reply) else s
  }

  /** A notification about any other plate, or with no plate tracked, is ignored. */
  lemma NotificationForOtherPlateIgnored(s: State, other: string, reply: Reply)
    requires s.tracked.None? || s.tracked.value == "" || other != s.tracked.value
    ensures OnVehicleUpdated(s, JStr(other), reply) == s
    ensures OnVehicleUpdatedIntended(s, JStr(other), reply) == s
  {
  }

  /** Outside a status update, the listener as written and as intended agree. */
  lemma ListenerAgreesWhenIdle(s: State, notified: Json, reply: Reply)
    requires !s.isUpdatingStatus
    ensures OnVehicleUpdated(s, notified, reply) == OnVehicleUpdatedIntended(s, notified, reply)
  {
  }

  /**
   * During a status update the listener as written still refetches: a
   * notification for the tracked plate replaces the search result.
   */
  lemma StaleGuardRefetchesDuringUpdate()
    ensures var s := Initial.(isUpdatingStatus := true, tracked := Some("AB-1234-CD"), searchResult := JNull);
            var reply := Resolved(JObj(map["plaque_immatriculation" := JStr("AB-1234-CD")]));
      && OnVehicleUpdated(s, JStr("AB-1234-CD"), reply) != s
      && OnVehicleUpdatedIntended(s, JStr("AB-1234-CD"), reply) == s
  {
    var s := Initial.(isUpdatingStatus := true, tracked := Some("AB-1234-CD"), searchResult := JNull);
    var reply := Resolved(JObj(map["plaque_immatriculation" := JStr("AB-1234-CD")]));
    assert OnVehicleUpdated(s, JStr("AB-1234-CD"), reply).searchResult == reply.data;
  }

  // ---------------------------------------------------------------------------
  // Police-status update
  // ---------------------------------------------------------------------------

  /**
   * `{...prev, k: v}`. An object contributes its fields and an array its
   * indices, written in decimal; null, undefined and numbers contribute nothing.
   */
  function Spread(prev: Json, k: string, v: Json): (r: Json)
    ensures r.JObj? && Field(r, k) == v
    ensures forall j :: j != k && prev.JObj? ==> Field(r, j) == Field(prev, j)
    ensures prev.JArr? ==> forall i :: 0 <= i < |prev.items| && NatText(i) != k ==> Field(r, NatText(i)) == prev.items[i]
    ensures prev.JArr? ==> forall j :: j in r.fields ==> j == k || exists i :: 0 <= i < |prev.items| && j == NatText(i)
    ensures !prev.JObj? && !prev.JArr? ==> r.fields.Keys == {k}
  {
    match prev
    case JObj(f) => JObj(f[k := v])
    case JArr(items) => JObj(IndexFields(items)[k := v])
    case _ => JObj(map[k := v])
  }

  /** The own properties of an array: each element under its index's decimal text. */
  function IndexFields(items: seq<Json>): (m: map<string, Json>)
    ensures forall i :: 0 <= i < |items| ==> NatText(i) in m && m[NatText(i)] == items[i]
    ensures forall key :: key in m ==> exists i :: 0 <= i < |items| && key == NatText(i)
  {
    if items == [] then map[]
    else
      var n := |items| - 1;
      assert items == items[..n] + [items[n]];
      forall i | 0 <= i < n
        ensures NatText(i) != NatText(n)
      {
        NatTextInjective(i, n);
      }
      IndexFieldsExtend(items[..n], items[n], IndexFields(items[..n]), NatText);
      IndexFields(items[..n])[NatText(n) := items[n]]
  }

  /**
   * Adding the next element under its key keeps every earlier element, for
   * any key function that gives the new index a key of its own.
   */
  lemma IndexFieldsExtend(pre: seq<Json>, x: Json, m: map<string, Json>, key: nat -> string)
    requires forall i :: 0 <= i < |pre| ==> key(i) in m && m[key(i)] == pre[i]
    requires forall j :: j in m ==> exists i :: 0 <= i < |pre| && j == key(i)
    requires forall i :: 0 <= i < |pre| ==> key(i) != key(|pre|)
    ensures var m' := m[key(|pre|) := x];
      && (forall i :: 0 <= i < |pre + [x]| ==> key(i) in m' && m'[key(i)] == (pre + [x])[i])
      && (forall j :: j in m' ==> exists i :: 0 <= i < |pre + [x]| && j == key(i))
  {
    var m' := m[key(|pre|) := x];
    forall j | j in m'
      ensures exists i :: 0 <= i < |pre + [x]| && j == key(i)
    {
      if j != key(|pre|) {
        var i :| 0 <= i < |pre| && j == key(i);
        assert 0 <= i < |pre + [x]| && j == key(i);
      }
    }
  }

  /** Different indices have different decimal texts. */
  lemma NatTextInjective(a: nat, b: nat)
    ensures NatText(a) == NatText(b) ==> a == b
  {
    Server.DigitsValueOfNatText(a);
    Server.DigitsValueOfNatText(b);
  }

  /**
   * The search result after a resolved update: the first shape of reply
   * that applies. An array is an object to `typeof` but has none of the
   * three fields, so it falls to the last case like a non-object.
   */
  function ApplyStatusReply(prev: Json, data: Json, newStatus: string): (r: Json)
    ensures Truthy(r)
    ensures data.JObj? && Truthy(Field(data, "plaque_immatriculation")) ==> r == data
    ensures data.JObj? && !Truthy(Field(data, "plaque_immatriculation")) && Truthy(Field(data, "vehicule")) ==>
      r == Field(data, "vehicule")
    ensures !(data.JObj? && (Truthy(Field(data, "plaque_immatriculation")) || Truthy(Field(data, "vehicule")))) ==>
      && Field(r, "statut_police") ==
           (if data.JObj? && Truthy(Field(data, "statut_police")) then Field(data, "statut_police") else JStr(newStatus))
      && (prev.JObj? ==> forall k :: k != "statut_police" ==> Field(r, k) == Field(prev, k))
  {
    if data.JObj? then
      if Truthy(Field(data, "plaque_immatriculation")) then data
      else if Truthy(Field(data, "vehicule")) then Field(data, "vehicule")
      else if Truthy(Field(data, "statut_police")) then Spread(prev, "statut_police", Field(data, "statut_police"))
      else Spread(prev, "statut_police", JStr(newStatus))
    else Spread(prev, "statut_police", JStr(newStatus))
  }

  /**
   * A reply carrying the vehicle nested under `vehicule` replaces the result
   * with it; so does the row itself, unless its plate is the empty (falsy) string.
   */
  lemma ApplyStatusReplyServerShapes(prev: Json, v: Vehicle, text: string, newStatus: string)
    ensures v.plaque != "" ==> ApplyStatusReply(prev, VehicleJson(v), newStatus) == VehicleJson(v)
    ensures ApplyStatusReply(prev, BodyJson(Handlers.WithVehicle(text, v)), newStatus) == VehicleJson(v)
  {
    VehicleJsonColumn(v, CarteGrise);
    var nested := BodyJson(Handlers.WithVehicle(text, v));
    assert Field(nested, "plaque_immatriculation") == JUndefined;
    assert Field(nested, "vehicule") == VehicleJson(v);
  }

  /** What the update sends: the PUT URL, the body's `nouveau_statut`, and the bearer token. */
  datatype PutRequest = PutRequest(url: string, nouveauStatut: string, bearer: string)

  /**
   * The tail of the error message, `err.response?.data?.message` or the
   * communication error: a failure that got no response (status None) has
   * no data to read.
   */
  function ErrorDetail(status: Option<int>, data: Json): (t: string)
    ensures status.None? ==> t == CommunicationError
    ensures status.Some? && Truthy(Field(data, "message")) ==> t == TemplateText(Field(data, "message"))
    ensures !Truthy(Field(data, "message")) ==> t == CommunicationError
  {
    if status.Some? && Truthy(Field(data, "message")) then TemplateText(Field(data, "message")) else CommunicationError
  }

  /**
   * `handleUpdateStatusPolice(newStatus)` with the stored token `token`, the
   * API base `api`, and the PUT settling as `reply` when it is sent.
   */
  function HandleUpdateStatusPolice(s: State, newStatus: string, token: Option<string>, api: string, reply: Reply)
    : (r: (State, Option<PutRequest>))
    // The flag is reset on every path; plate, tracking and search error are not touched.
    ensures !r.0.isUpdatingStatus
    ensures r.0.plaque == s.plaque && r.0.tracked == s.tracked && r.0.error == s.error
    // No token: a message, no request, the result as it was.
    ensures token.None? || token.value == "" ==>
      r.1 == None && r.0.message == NoSessionText && r.0.searchResult == s.searchResult
    // A request is sent exactly when there is a token and a result to read the plate from.
    ensures r.1.Some? <==> token.Some? && token.value != "" && !Nullish(s.searchResult)
    ensures r.1.Some? ==>
      && r.1.value.url == api + Routes.PolicePath(TemplateText(Field(s.searchResult, "plaque_immatriculation")))
      && r.1.value.nouveauStatut == newStatus
      && r.1.value.bearer == token.value
    ensures r.1.Some? && reply.Resolved? ==>
      && r.0.searchResult == ApplyStatusReply(s.searchResult, reply.data, newStatus)
      && r.0.message == "Statut police mis à jour avec succès : " + newStatus
    // A rejected request, or none for want of a result, leaves the result and reports an error.
    ensures (r.1.Some? && reply.Rejected?) || (r.1.None? && token.Some? && token.value != "") ==>
      && r.0.searchResult == s.searchResult
      && r.0.message == "Erreur lors de la mise à jour du statut : " +
                          (if r.1.Some? then ErrorDetail(reply.status, reply.data) else CommunicationError)
    // A request that got no response at all reports the communication error.
    ensures r.1.Some? && reply.Rejected? && reply.status.None? ==>
      r.0.message == "Erreur lors de la mise à jour du statut : " + CommunicationError
  {
    var busy := s.(isUpdatingStatus := true, message := "");
    if token.None? || token.value == "" then
      (busy.(message := NoSessionText, isUpdatingStatus := false), None)
    else if Nullish(s.searchResult) then
      // Reading the plate off a null result throws before the request is made.
      (busy.(message := "Erreur lors de la mise à jour du statut : " + CommunicationError, isUpdatingStatus := false), None)
    else
      var url := api + Routes.PolicePath(TemplateText(Field(s.searchResult, "plaque_immatriculation")));
      var req := PutRequest(url, newStatus, token.value);
      match reply
      case Resolved(data) =>
        (busy.(searchResult := ApplyStatusReply(s.searchResult, data, newStatus),
               message := "Statut police mis à jour avec succès : " + newStatus,
               isUpdatingStatus := false), Some(req))
      case Rejected(status, data) =>
        (busy.(message := "Erreur lors de la mise à jour du statut : " + ErrorDetail(status, data),
               isUpdatingStatus := false), Some(req))
  }

  /** The plate the update reads off the shown result. */
  function ResultPlate(searchResult: Json): string
  {
    TemplateText(Field(searchResult, "plaque_immatriculation"))
  }

  /**
   * Against this server the update can only fail: its path matches no PUT
   * route, so Express answers its default 404 page and nothing changes on
   * the server, and the portal reports the communication error with the
   * result unchanged. `UrlSafe` plates are those the browser sends as
   * written.
   */
  lemma PoliceUpdateAgainstServer(s: State, db: Db, newStatus: string, token: string, api: string,
                                  now: Timestamp, env: Handlers.AuditEnv)
    requires token != "" && !Nullish(s.searchResult) && Routes.UrlSafe(ResultPlate(s.searchResult))
    ensures var path := Routes.PolicePath(ResultPlate(s.searchResult));
            var out := Server.ServeStatusPut(db, path, Some(newStatus), now, env);
            var r := HandleUpdateStatusPolice(s, newStatus, Some(token), api, Deliver(out.response));
      && r.1 == Some(PutRequest(api + path, newStatus, token))
      && out.response == Handlers.Response(404, Handlers.NoRoute("PUT", path))
      && out.db == db && out.effects == []
      && r.0.searchResult == s.searchResult
      && r.0.message == "Erreur lors de la mise à jour du statut : " + CommunicationError
  {
    PolicePathServed(db, ResultPlate(s.searchResult), Some(newStatus), now, env);
    NoRouteReplyShown(s, newStatus, token, api, "PUT", Routes.PolicePath(ResultPlate(s.searchResult)));
  }

  /** The server's dispatch answers the police path with its 404 page and changes nothing. */
  lemma PolicePathServed(db: Db, plate: string, raw: Option<string>, now: Timestamp, env: Handlers.AuditEnv)
    ensures Server.ServeStatusPut(db, Routes.PolicePath(plate), raw, now, env) ==
      Handlers.Outcome(Handlers.Response(404, Handlers.NoRoute("PUT", Routes.PolicePath(plate))), db, [])
  {
    Routes.PolicePathUnrouted(plate);
  }

  /** Express's 404 page carries no message, so the portal reports the communication error. */
  lemma NoRouteReplyShown(s: State, newStatus: string, token: string, api: string, verb: string, path: string)
    requires token != "" && !Nullish(s.searchResult)
    ensures var r := HandleUpdateStatusPolice(s, newStatus, Some(token), api,
                                              Deliver(Handlers.Response(404, Handlers.NoRoute(verb, path))));
      && r.1 == Some(PutRequest(api + Routes.PolicePath(ResultPlate(s.searchResult)), newStatus, token))
      && r.0.searchResult == s.searchResult
      && r.0.message == "Erreur lors de la mise à jour du statut : " + CommunicationError
  {
    assert Field(BodyJson(Handlers.NoRoute(verb, path)), "message") == JUndefined;
  }

  // ---------------------------------------------------------------------------
  // Badge and action buttons
  // ---------------------------------------------------------------------------

  datatype Badge = StatusExpire | StatusIntercepted | StatusValide | StatusManquant

  function BadgeClass(b: Badge): string
  {
    match b
    case StatusExpire => "status-expire"
    case StatusIntercepted => "status-intercepted"
    case StatusValide => "status-valide"
    case StatusManquant => "status-manquant"
  }

  /** The badge of `searchResult?.statut_police`, by strict comparison with the four names. */
  function PoliceBadge(status: Json): Badge
  {
    if status == JStr("VOLÉ") || status == JStr("EN FUITE") then StatusExpire
    else if status == JStr("INTERCEPTÉ") then StatusIntercepted
    else if status == JStr("NORMAL") then StatusValide
    else StatusManquant
  }

  /** The badge each police status is meant to show. */
  function BadgeOf(p: PoliceStatus): Badge
  {
    match p
    case Vole => StatusExpire
    case EnFuite => StatusExpire
    case Intercepte => StatusIntercepted
    case Normal => StatusValide
  }

  /**
   * A known police status shows its own badge; anything else, null
   * included, shows the missing badge. Stolen and fleeing vehicles share
   * the expired style.
   */
  lemma PoliceBadgeMatchesStatus(status: Json)
    ensures ReadPoliceStatus(status).Some? ==> PoliceBadge(status) == BadgeOf(ReadPoliceStatus(status).value)
    ensures PoliceBadge(status) == StatusManquant <==> ReadPoliceStatus(status).None?
    ensures BadgeClass(PoliceBadge(status)) == "status-expire" <==>
      ReadPoliceStatus(status) == Some(Vole) || ReadPoliceStatus(status) == Some(EnFuite)
    ensures BadgeClass(PoliceBadge(status)) == "status-intercepted" <==> ReadPoliceStatus(status) == Some(Intercepte)
    ensures BadgeClass(PoliceBadge(status)) == "status-valide" <==> ReadPoliceStatus(status) == Some(Normal)
  {
  }

  /** The four police statuses, in button order. */
  const PoliceButtons: seq<string> := ["VOLÉ", "EN FUITE", "INTERCEPTÉ", "NORMAL"]

  /** The statuses offered as buttons for the shown result. */
  function Actions(searchResult: Json): (r: seq<string>)
    requires Truthy(searchResult)
    ensures forall a :: a in r <==> a in PoliceButtons && Field(searchResult, "statut_police") != JStr(a)
    ensures ReadPoliceStatus(Field(searchResult, "statut_police")).Some? ==> |r| == 3
    ensures ReadPoliceStatus(Field(searchResult, "statut_police")).None? ==> r == PoliceButtons
  {
    var current := Field(searchResult, "statut_police");
    (if current != JStr("VOLÉ") then ["VOLÉ"] else [])
    + (if current != JStr("EN FUITE") then ["EN FUITE"] else [])
    + (if current != JStr("INTERCEPTÉ") then ["INTERCEPTÉ"] else [])
    + (if current != JStr("NORMAL") then ["NORMAL"] else [])
  }

  /** For a row from the server, the buttons are every police status but the vehicle's own. */
  lemma ActionsOfServerRow(v: Vehicle)
    ensures forall a :: a in Actions(VehicleJson(v)) <==> a in PoliceButtons && a != PoliceStatusName(v.statutPolice)
  {
    VehicleJsonColumn(v, CarteGrise);
  }
}

=== FILE: registry.dfy ===
/**
 * The vehicle registry's data: the `vehicules` and `proprietaires` tables,
 * held as finite maps keyed by their primary keys, and the status
 * enumerations their columns hold.
 *
 * Document statuses are a non-null enumeration: every status column holds
 * one of MANQUANT, VALIDE, EXPIRÉ. This is an assumption about the stored
 * data (the routes only ever write these three values); SQL NULL statuses
 * are not represented.
 */
module Registry {
  import opened Wrappers

  /** Opaque value of the database's CURRENT_TIMESTAMP. */
  type Timestamp = int

  type Plate = string

  type OwnerId = int

  /** The value set of the four document-status columns. */
  datatype DocStatus = Manquant | Valide | Expire

  /** The value set of the `statut_police` column. */
  datatype PoliceStatus = Normal | Vole | EnFuite | Intercepte

  /** The four compliance documents, each owned by one agency route. */
  datatype Document = CarteGrise | Assurance | Vignette | VisiteTechnique

  function DocStatusName(s: DocStatus): string
  {
    match s
    case Manquant => "MANQUANT"
    case Valide => "VALIDE"
    case Expire => "EXPIRÉ"
  }

  function PoliceStatusName(s: PoliceStatus): string
  {
    match s
    case Normal => "NORMAL"
    case Vole => "VOLÉ"
    case EnFuite => "EN FUITE"
    case Intercepte => "INTERCEPTÉ"
  }

  /** The list every document-status route checks the submitted value against. */
  const AcceptedStatuses: seq<string> := ["MANQUANT", "VALIDE", "EXPIRÉ"]

  /**
   * The server's `includes` check on `nouveau_statut`. `raw` is None when the
   * body has no such field or it is not a string: `includes` rejects both.
   */
  function ParseDocStatus(raw: Option<string>): (r: Option<DocStatus>)
    ensures r.Some? <==> raw.Some? && raw.value in AcceptedStatuses
    ensures r.Some? ==> DocStatusName(r.value) == raw.value
  {
    match raw
    case None => None
    case Some(s) =>
      if s == "MANQUANT" then Some(Manquant)
      else if s == "VALIDE" then Some(Valide)
      else if s == "EXPIRÉ" then Some(Expire)
      else None
  }

  /** Every status the server can store is accepted back by its own check. */
  lemma ParseDocStatusName(s: DocStatus)
    ensures ParseDocStatus(Some(DocStatusName(s))) == Some(s)
  {
  }

  /** The column each document's status lives in. */
  function ColumnName(d: Document): string
  {
    match d
    case CarteGrise => "statut_carte_grise"
    case Assurance => "statut_assurance"
    case Vignette => "statut_vignette"
    case VisiteTechnique => "statut_visite_technique"
  }

  /** One row of `vehicules`. Nullable columns are Options. */
  datatype Vehicle = Vehicle(
    plaque: Plate,
    marque: Option<string>,
    modele: Option<string>,
    annee: Option<int>,
    couleur: Option<string>,
    numeroChassis: Option<string>,
    carteGrise: DocStatus,
    assurance: DocStatus,
    vignette: DocStatus,
    visiteTechnique: DocStatus,
    statutPolice: PoliceStatus,
    statutGeneral: Option<string>,
    proprietaireId: Option<OwnerId>,
    dateCreation: Timestamp,
    dateModification: Timestamp)

  /** One row of `proprietaires`. */
  datatype Owner = Owner(
    id: OwnerId,
    nom: Option<string>,
    prenom: Option<string>,
    dateNaissance: Option<string>,
    adresse: Option<string>,
    telephone: Option<string>,
    email: Option<string>)

  type VehicleTable = map<Plate, Vehicle>

  type OwnerTable = map<OwnerId, Owner>

  /** The whole persisted state the modelled routes touch. */
  datatype Db = Db(vehicles: VehicleTable, owners: OwnerTable)

  /** Primary keys agree with the rows they index. */
  ghost predicate WellKeyed(db: Db)
  {
    && (forall p :: p in db.vehicles ==> db.vehicles[p].plaque == p)
    && (forall i :: i in db.owners ==> db.owners[i].id == i)
  }

  function GetDoc(v: Vehicle, d: Document): DocStatus
  {
    match d
    case CarteGrise => v.carteGrise
    case Assurance => v.assurance
    case Vignette => v.vignette
    case VisiteTechnique => v.visiteTechnique
  }

  /**
   * `w` agrees with `v` on every column except the status column of `d`
   * and `date_modification`.
   */
  ghost predicate AgreeOutside(v: Vehicle, w: Vehicle, d: Document)
  {
    && w.plaque == v.plaque
    && w.marque == v.marque
    && w.modele == v.modele
    && w.annee == v.annee
    && w.couleur == v.couleur
    && w.numeroChassis == v.numeroChassis
    && w.statutPolice == v.statutPolice
    && w.statutGeneral == v.statutGeneral
    && w.proprietaireId == v.proprietaireId
    && w.dateCreation == v.dateCreation
    && (forall e :: e != d ==> GetDoc(w, e) == GetDoc(v, e))
  }

  /** Writes status `s` into the column of document `d`. */
  function SetDoc(v: Vehicle, d: Document, s: DocStatus): (w: Vehicle)
    ensures GetDoc(w, d) == s
    ensures AgreeOutside(v, w, d)
    ensures w.dateModification == v.dateModification
  {
    match d
    case CarteGrise => v.(carteGrise := s)
    case Assurance => v.(assurance := s)
    case Vignette => v.(vignette := s)
    case VisiteTechnique => v.(visiteTechnique := s)
  }

  /** Writing back the old value undoes a SetDoc. */
  lemma SetDocRestore(v: Vehicle, d: Document, s: DocStatus)
    ensures SetDoc(SetDoc(v, d, s), d, GetDoc(v, d)) == v
  {
  }

  /** Writes to two different documents commute. */
  lemma SetDocCommute(v: Vehicle, d: Document, s: DocStatus, e: Document, t: DocStatus)
    requires d != e
    ensures SetDoc(SetDoc(v, d, s), e, t) == SetDoc(SetDoc(v, e, t), d, s)
  {
  }
}

=== FILE: routes.dfy ===
/**
 * Matching of request paths against the server's parameterised routes, with
 * Express's default (non-strict) routing: a parameter such as `:plaque`
 * matches one non-empty path segment, and one trailing slash after the
 * route is tolerated. Routes are matched case-insensitively by Express; the
 * client builds every fixed part in lower case, so the model compares the
 * fixed parts exactly.
 */
module Routes {
  import opened Wrappers
  import opened Registry

  /** A value an Express `:param` can capture. */
  predicate IsSegment(s: string)
  {
    |s| > 0 && forall i :: 0 <= i < |s| ==> s[i] != '/'
  }

  /** Matches `pre + <segment> + suf` and returns the segment. */
  function MatchShape(pre: string, suf: string, path: string): (r: Option<string>)
  {
    if |pre| + |suf| <= |path| && path[..|pre|] == pre && path[|path| - |suf|..] == suf
       && IsSegment(path[|pre|..|path| - |suf|])
    then Some(path[|pre|..|path| - |suf|])
    else None
  }

  /** A path built around a segment is matched, and yields that segment back. */
  lemma MatchShapeBuilt(pre: string, suf: string, p: string)
    ensures MatchShape(pre, suf, pre + p + suf) == (if IsSegment(p) then Some(p) else None)
  {
    var path := pre + p + suf;
    assert path[..|pre|] == pre;
    assert path[|path| - |suf|..] == suf;
    assert path[|pre|..|path| - |suf|] == p;
  }

  /** Whatever is matched is the path built around the returned segment. */
  lemma MatchShapeSound(pre: string, suf: string, path: string)
    requires MatchShape(pre, suf, path).Some?
    ensures IsSegment(MatchShape(pre, suf, path).value)
    ensures path == pre + MatchShape(pre, suf, path).value + suf
  {
    var a := |pre|;
    var b := |path| - |suf|;
    assert path == path[..a] + path[a..b] + path[b..];
  }

  /** A path whose leading characters disagree with `pre` is not matched. */
  lemma MatchShapeMismatch(pre: string, suf: string, path: string, k: nat)
    requires k < |pre| && k < |path| && path[k] != pre[k]
    ensures MatchShape(pre, suf, path) == None
  {
  }

  /** Whether `path` ends with a slash, which non-strict routing ignores. */
  predicate EndsWithSlash(path: string)
  {
    |path| > 0 && path[|path| - 1] == '/'
  }

  /** Express's match of `pre + :param + suf`: exactly, or with one trailing slash dropped. */
  function MatchRoute(pre: string, suf: string, path: string): Option<string>
  {
    if MatchShape(pre, suf, path).Some? then MatchShape(pre, suf, path)
    else if EndsWithSlash(path) then MatchShape(pre, suf, path[..|path| - 1])
    else None
  }

  /** Whatever a route matches is the route's path around the segment, possibly followed by one slash. */
  lemma MatchRouteSound(pre: string, suf: string, path: string)
    requires MatchRoute(pre, suf, path).Some?
    ensures IsSegment(MatchRoute(pre, suf, path).value)
    ensures var p := MatchRoute(pre, suf, path).value;
      path == pre + p + suf || path == pre + p + suf + "/"
  {
    if MatchShape(pre, suf, path).Some? {
      MatchShapeSound(pre, suf, path);
    } else {
      MatchShapeSound(pre, suf, path[..|path| - 1]);
      assert path == path[..|path| - 1] + "/";
    }
  }

  /** A path that disagrees with `pre` before its last character is not matched. */
  lemma MatchRouteMismatch(pre: string, suf: string, path: string, k: nat)
    requires k < |pre| && k + 1 < |path| && path[k] != pre[k]
    ensures MatchRoute(pre, suf, path) == None
  {
    MatchShapeMismatch(pre, suf, path, k);
    if EndsWithSlash(path) {
      MatchShapeMismatch(pre, suf, path[..|path| - 1], k);
    }
  }

  // ---------------------------------------------------------------------------
  // What the browser sends
  // ---------------------------------------------------------------------------

  /**
   * A plate the browser's URL parser leaves intact inside a path, up to the
   * percent-encoding that Express undoes when it decodes the parameter: no
   * `?` or `#` (they end the path), no backslash (read as `/`), no `%`
   * (Express's decoding would not give the plate back), and no `.` or `..`
   * segment (collapsed). Tab, line feed and carriage return are removed
   * anywhere, and a space or control character at the very end of the URL
   * is stripped; other spaces and controls are percent-encoded and decoded
   * back, and are excluded here only to keep the predicate simple.
   */
  predicate UrlSafe(p: string)
  {
    && (forall i :: 0 <= i < |p| ==> p[i] > ' ' && p[i] != '?' && p[i] != '#' && p[i] != '\\' && p[i] != '%')
    && (forall i :: 0 <= i < |p| && p[i] == '.' && (i == 0 || p[i - 1] == '/') ==>
          !(i + 1 == |p| || p[i + 1] == '/' || (p[i + 1] == '.' && (i + 2 == |p| || p[i + 2] == '/'))))
  }

  // ---------------------------------------------------------------------------
  // The four document-status routes
  // ---------------------------------------------------------------------------

  /** The part of each status route before `/:plaque`. */
  function DocRouteBase(d: Document): string
  {
    match d
    case CarteGrise => "/ont/vehicules"
    case Assurance => "/assurance/vehicules"
    case Vignette => "/mairie/vehicules"
    case VisiteTechnique => "/mts/vehicules"
  }

  /** The part of each status route after `/:plaque/`. */
  function DocRouteLeaf(d: Document): string
  {
    match d
    case CarteGrise => "carte-grise"
    case Assurance => "statut"
    case Vignette => "vignette"
    case VisiteTechnique => "visite-technique"
  }

  /** The path of document `d`'s status route for plate `p`. */
  function DocPath(d: Document, p: string): string
  {
    DocRouteBase(d) + "/" + p + "/" + DocRouteLeaf(d)
  }

  function MatchDoc(d: Document, path: string): Option<string>
  {
    MatchRoute(DocRouteBase(d) + "/", "/" + DocRouteLeaf(d), path)
  }

  /** Which status route, if any, handles a PUT on `path`, and the plate it captures. */
  function MatchDocRoute(path: string): Option<(Document, string)>
  {
    if MatchDoc(CarteGrise, path).Some? then Some((CarteGrise, MatchDoc(CarteGrise, path).value))
    else if MatchDoc(Assurance, path).Some? then Some((Assurance, MatchDoc(Assurance, path).value))
    else if MatchDoc(Vignette, path).Some? then Some((Vignette, MatchDoc(Vignette, path).value))
    else if MatchDoc(VisiteTechnique, path).Some? then Some((VisiteTechnique, MatchDoc(VisiteTechnique, path).value))
    else None
  }

  lemma DocPathSplit(d: Document, p: string)
    ensures DocPath(d, p) == (DocRouteBase(d) + "/") + p + ("/" + DocRouteLeaf(d))
  {
  }

  /** Two status routes already differ within their fixed prefixes. */
  lemma DocBasesDiffer(d: Document, e: Document) returns (k: nat)
    requires d != e
    ensures k < |DocRouteBase(d)| && k < |DocRouteBase(e)|
    ensures DocRouteBase(d)[k] != DocRouteBase(e)[k]
  {
    if (d == Vignette && e == VisiteTechnique) || (d == VisiteTechnique && e == Vignette) {
      k := 2;
    } else {
      k := 1;
    }
  }

  /** Status route `d` never claims a path built for status route `e`. */
  lemma MatchDocOther(d: Document, e: Document, p: string)
    requires d != e
    ensures MatchDoc(d, DocPath(e, p)) == None
  {
    var k := DocBasesDiffer(d, e);
    DocPathSplit(e, p);
    var path := DocPath(e, p);
    assert path[k] == DocRouteBase(e)[k];
    MatchRouteMismatch(DocRouteBase(d) + "/", "/" + DocRouteLeaf(d), path, k);
  }

  /** A status path ends with its route's last letter, never with a slash. */
  lemma DocPathNoSlash(d: Document, p: string)
    ensures !EndsWithSlash(DocPath(d, p))
  {
    var path := DocPath(d, p);
    assert path[|path| - 1] == DocRouteLeaf(d)[|DocRouteLeaf(d)| - 1];
  }

  /**
   * The path of route `d` for plate `p` reaches route `d` with plate `p`
   * exactly when `p` is one non-empty segment; otherwise no status route
   * handles it.
   */
  lemma {:induction false} DocRouteRoundTrip(d: Document, p: string)
    ensures MatchDocRoute(DocPath(d, p)) == (if IsSegment(p) then Some((d, p)) else None)
  {
    MatchDocOwn(d, p);
    forall e | e != d
      ensures MatchDoc(e, DocPath(d, p)) == None
    {
      MatchDocOther(e, d, p);
    }
  }

  /** Status route `d` takes the path built for it exactly when the plate is one segment. */
  lemma MatchDocOwn(d: Document, p: string)
    ensures MatchDoc(d, DocPath(d, p)) == (if IsSegment(p) then Some(p) else None)
  {
    DocPathSplit(d, p);
    DocPathNoSlash(d, p);
    MatchShapeBuilt(DocRouteBase(d) + "/", "/" + DocRouteLeaf(d), p);
  }

  /** A matched status route is the route the path was built for, possibly with a trailing slash. */
  lemma DocRouteSound(path: string)
    requires MatchDocRoute(path).Some?
    ensures IsSegment(MatchDocRoute(path).value.1)
    ensures var m := MatchDocRoute(path).value;
      path == DocPath(m.0, m.1) || path == DocPath(m.0, m.1) + "/"
  {
    var m := MatchDocRoute(path).value;
    MatchDocRouteHit(path);
    MatchRouteSound(DocRouteBase(m.0) + "/", "/" + DocRouteLeaf(m.0), path);
    DocPathSplit(m.0, m.1);
  }

  /** The status route `MatchDocRoute` picks does match the path, with the plate it reports. */
  lemma MatchDocRouteHit(path: string)
    requires MatchDocRoute(path).Some?
    ensures MatchDoc(MatchDocRoute(path).value.0, path) == Some(MatchDocRoute(path).value.1)
  {
  }

  // ---------------------------------------------------------------------------
  // The single-vehicle route and the client's police route
  // ---------------------------------------------------------------------------

  /** The path of GET/PUT/DELETE `/vehicules/:plaque`. */
  function VehiclePath(p: string): string
  {
    "/vehicules/" + p
  }

  function MatchVehicleRoute(path: string): Option<string>
  {
    MatchRoute("/vehicules/", "", path)
  }

  /** The list route `/vehicules`, which also takes `/vehicules/` under non-strict routing. */
  predicate MatchListRoute(path: string)
  {
    path == "/vehicules" || path == "/vehicules/"
  }

  /** The owner route `/proprietaires/:id`. */
  function MatchOwnerRoute(path: string): Option<string>
  {
    MatchRoute("/proprietaires/", "", path)
  }

  /**
   * `/vehicules/<p>` reaches the single-vehicle route with `p` when `p` is
   * one segment, and with `q` when `p` is a segment `q` followed by a slash;
   * otherwise it does not reach it.
   */
  lemma {:induction false} VehicleRouteRoundTrip(p: string)
    ensures MatchVehicleRoute(VehiclePath(p)) ==
      if IsSegment(p) then Some(p)
      else if EndsWithSlash(p) && IsSegment(p[..|p| - 1]) then Some(p[..|p| - 1])
      else None
  {
    var path := VehiclePath(p);
    assert path == "/vehicules/" + p + "";
    MatchShapeBuilt("/vehicules/", "", p);
    if !IsSegment(p) && EndsWithSlash(path) {
      if |p| == 0 {
        assert |path[..|path| - 1]| < |"/vehicules/"|;
      } else {
        var q := p[..|p| - 1];
        assert path[..|path| - 1] == "/vehicules/" + q + "";
        MatchShapeBuilt("/vehicules/", "", q);
      }
    }
  }

  /** Only the empty plate sends the single-vehicle path to the list route. */
  lemma VehiclePathListed(p: string)
    ensures MatchListRoute(VehiclePath(p)) <==> p == ""
    ensures MatchListRoute(VehiclePath(p)) ==> MatchVehicleRoute(VehiclePath(p)) == None
  {
    if MatchListRoute(VehiclePath(p)) {
      assert |VehiclePath(p)| == 11 + |p|;
      assert p == VehiclePath(p)[11..];
    }
    VehicleRouteRoundTrip(p);
  }

  /** The path the police portal sends its status update to. */
  function PolicePath(p: string): string
  {
    "/police/vehicules/" + p + "/statut-police"
  }

  /**
   * The server defines no PUT route for the police portal's update: no
   * status route, not the single-vehicle route and not the owner route
   * matches its path, whatever the plate.
   */
  lemma PolicePathUnrouted(p: string)
    ensures MatchDocRoute(PolicePath(p)) == None
    ensures MatchVehicleRoute(PolicePath(p)) == None
    ensures MatchOwnerRoute(PolicePath(p)) == None
  {
    var path := PolicePath(p);
    assert path[1] == 'p' && path[2] == 'o' && |path| > 3;
    MatchRouteMismatch("/vehicules/", "", path, 1);
    MatchRouteMismatch("/proprietaires/", "", path, 2);
    forall d
      ensures MatchDoc(d, path) == None
    {
      MatchRouteMismatch(DocRouteBase(d) + "/", "/" + DocRouteLeaf(d), path, 1);
    }
  }
}

=== FILE: server.dfy ===
/**
 * Express's dispatch of a request path to the route handlers, for the two
 * kinds of request the portals send: a GET under `/vehicules`, and a PUT
 * whose body carries only `nouveau_statut`. A path no route matches gets
 * Express's default 404 page and changes nothing.
 */
module Server {
  import opened Wrappers
  import opened Registry
  import opened Handlers
  import Routes
  import Wire

  /** A GET on `/vehicules` followed by `rest`: the list route or the single-vehicle route. */
  function ServeVehiculesGet(db: Db, listing: seq<Vehicle>, rest: string): (r: Response)
    requires Listed(db.vehicles, listing)
    ensures Routes.MatchListRoute("/vehicules" + rest) ==> r == ListVehicles(db, listing)
    ensures Routes.MatchVehicleRoute("/vehicules" + rest).Some? ==>
      r == GetVehicle(db, Routes.MatchVehicleRoute("/vehicules" + rest).value)
    ensures !Routes.MatchListRoute("/vehicules" + rest) && Routes.MatchVehicleRoute("/vehicules" + rest).None? ==>
      r == Response(404, NoRoute("GET", "/vehicules" + rest))
  {
    var path := "/vehicules" + rest;
    if Routes.MatchListRoute(path) then ListVehicles(db, listing)
    else if Routes.MatchVehicleRoute(path).Some? then GetVehicle(db, Routes.MatchVehicleRoute(path).value)
    else Response(404, NoRoute("GET", path))
  }

  predicate AllDigits(t: string)
  {
    forall i :: 0 <= i < |t| ==> '0' <= t[i] <= '9'
  }

  function DigitsValue(t: string): nat
    requires AllDigits(t)
  {
    if t == [] then 0 else DigitsValue(t[..|t| - 1]) * 10 + (t[|t| - 1] as int - '0' as int)
  }

  const MinInt32: int := -0x8000_0000

  const MaxInt32: int := 0x7FFF_FFFF

  /**
   * PostgreSQL's reading of an `:id` text as the integer `proprietaires.id`:
   * an optional sign and decimal digits, within 32 bits. Anything else makes
   * the query fail.
   */
  function OwnerIdText(t: string): (r: Option<OwnerId>)
    ensures r.Some? ==> MinInt32 <= r.value <= MaxInt32
    ensures t == [] ==> r == None
    ensures r.Some? ==> (
      |t| > 0 &&
      var d := if t[0] == '-' || t[0] == '+' then t[1..] else t;
      d != [] && AllDigits(d) && r.value == (if t[0] == '-' then 0 - DigitsValue(d) else DigitsValue(d)))
    ensures (
      |t| > 0 &&
      var d := if t[0] == '-' || t[0] == '+' then t[1..] else t;
      d != [] && AllDigits(d) && MinInt32 <= (if t[0] == '-' then 0 - DigitsValue(d) else DigitsValue(d)) <= MaxInt32)
      ==> r.Some?
  {
    var signed := |t| > 0 && (t[0] == '-' || t[0] == '+');
    var digits := if signed then t[1..] else t;
    if digits == [] || !AllDigits(digits) then None
    else
      var n: int := if |t| > 0 && t[0] == '-' then 0 - (DigitsValue(digits) as int) else DigitsValue(digits);
      if MinInt32 <= n <= MaxInt32 then Some(n) else None
  }

  /** The decimal text of an owner id reads back as that id. */
  lemma {:induction false} DigitsValueOfNatText(n: nat)
    ensures AllDigits(Wire.NatText(n)) && DigitsValue(Wire.NatText(n)) == n
    decreases n
  {
    if n >= 10 {
      DigitsValueOfNatText(n / 10);
      var t := Wire.NatText(n);
      assert t[..|t| - 1] == Wire.NatText(n / 10);
    }
  }

  /** The text `${id}` puts into a path reads back as the id, for every id within 32 bits. */
  lemma OwnerIdTextRoundTrip(n: int)
    requires MinInt32 <= n <= MaxInt32
    ensures OwnerIdText(Wire.TemplateText(Wire.JNum(n))) == Some(n)
  {
    if n < 0 {
      DigitsValueOfNatText(-n);
      assert ("-" + Wire.NatText(-n))[1..] == Wire.NatText(-n);
    } else {
      DigitsValueOfNatText(n);
    }
  }

  /**
   * A PUT on `path` whose body is `{ nouveau_statut: raw }`. The generic
   * vehicle and owner routes read their columns from the body, find none,
   * and write NULL.
   */
  function ServeStatusPut(db: Db, path: string, raw: Option<string>, now: Timestamp, env: AuditEnv): (r: Outcome)
    ensures Routes.MatchDocRoute(path).Some? ==>
      r == UpdateDocStatus(Routes.MatchDocRoute(path).value.0, db, Routes.MatchDocRoute(path).value.1, raw, now, env)
    ensures Routes.MatchVehicleRoute(path).Some? ==>
      r == UpdateVehicle(db, Routes.MatchVehicleRoute(path).value, VehiclePatch(None, None, None), now, env)
    ensures Routes.MatchOwnerRoute(path).Some? && OwnerIdText(Routes.MatchOwnerRoute(path).value).Some? ==>
      r == UpdateOwner(db, OwnerIdText(Routes.MatchOwnerRoute(path).value).value, OwnerPatch(None, None, None))
    ensures Routes.MatchOwnerRoute(path).Some? && OwnerIdText(Routes.MatchOwnerRoute(path).value).None? ==>
      r == Outcome(ServerError, db, [])
    ensures Routes.MatchDocRoute(path).None? && Routes.MatchVehicleRoute(path).None? && Routes.MatchOwnerRoute(path).None? ==>
      r == Outcome(Response(404, NoRoute("PUT", path)), db, [])
  {
    DocVehicleOwnerDisjoint(path);
    if Routes.MatchDocRoute(path).Some? then
      var m := Routes.MatchDocRoute(path).value;
      UpdateDocStatus(m.0, db, m.1, raw, now, env)
    else if Routes.MatchVehicleRoute(path).Some? then
      UpdateVehicle(db, Routes.MatchVehicleRoute(path).value, VehiclePatch(None, None, None), now, env)
    else if Routes.MatchOwnerRoute(path).Some? then
      match OwnerIdText(Routes.MatchOwnerRoute(path).value)
      case Some(id) => UpdateOwner(db, id, OwnerPatch(None, None, None))
      case None => Outcome(ServerError, db, [])
    else
      Outcome(Response(404, NoRoute("PUT", path)), db, [])
  }

  /** The PUT routes are told apart by their first segment: no path matches two of them. */
  lemma DocVehicleOwnerDisjoint(path: string)
    ensures forall d: Document, e: Document :: d != e && Routes.MatchDoc(d, path).Some? ==> Routes.MatchDoc(e, path).None?
    ensures Routes.MatchDocRoute(path).Some? ==> Routes.MatchVehicleRoute(path).None? && Routes.MatchOwnerRoute(path).None?
    ensures Routes.MatchVehicleRoute(path).Some? ==> Routes.MatchOwnerRoute(path).None?
  {
    forall d: Document, e: Document | d != e && Routes.MatchDoc(d, path).Some?
      ensures Routes.MatchDoc(e, path).None?
    {
      DocRoutesDisjoint(d, e, path);
    }
    DocRouteExcludesOthers(path);
    VehicleRouteExcludesOwner(path);
  }

  /** Two status routes never match the same path: their fixed prefixes already differ. */
  lemma DocRoutesDisjoint(d: Document, e: Document, path: string)
    requires d != e && Routes.MatchDoc(d, path).Some?
    ensures Routes.MatchDoc(e, path).None?
  {
    var pre := Routes.DocRouteBase(d) + "/";
    var suf := "/" + Routes.DocRouteLeaf(d);
    var k := Routes.DocBasesDiffer(d, e);
    Routes.MatchRouteSound(pre, suf, path);
    var p := Routes.MatchRoute(pre, suf, path).value;
    assert path[k] == pre[k] by {
      if path == pre + p + suf {
        assert path[k] == (pre + p + suf)[k];
      } else {
        assert path[k] == (pre + p + suf + "/")[k];
      }
    }
    Routes.MatchRouteMismatch(Routes.DocRouteBase(e) + "/", "/" + Routes.DocRouteLeaf(e), path, k);
  }

  lemma VehicleRouteExcludesOwner(path: string)
    ensures Routes.MatchVehicleRoute(path).Some? ==> Routes.MatchOwnerRoute(path).None?
  {
    if Routes.MatchVehicleRoute(path).Some? {
      FirstLetterDiffers("/vehicules/", "", "/proprietaires/", "", path);
    }
  }

  lemma DocRouteExcludesOthers(path: string)
    ensures Routes.MatchDocRoute(path).Some? ==> Routes.MatchVehicleRoute(path).None? && Routes.MatchOwnerRoute(path).None?
  {
    if Routes.MatchDocRoute(path).Some? {
      DocRouteHitExcludesOthers(path);
    }
  }

  lemma DocRouteHitExcludesOthers(path: string)
    requires Routes.MatchDocRoute(path).Some?
    ensures Routes.MatchVehicleRoute(path).None? && Routes.MatchOwnerRoute(path).None?
  {
    var d := Routes.MatchDocRoute(path).value.0;
    Routes.MatchDocRouteHit(path);
    DocMatchExcludesOthers(d, path);
  }

  lemma DocMatchExcludesOthers(d: Document, path: string)
    requires Routes.MatchDoc(d, path).Some?
    ensures Routes.MatchVehicleRoute(path).None? && Routes.MatchOwnerRoute(path).None?
  {
    var pre := Routes.DocRouteBase(d) + "/";
    assert pre[1] == Routes.DocRouteBase(d)[1];
    FirstLetterDiffers(pre, "/" + Routes.DocRouteLeaf(d), "/vehicules/", "", path);
    FirstLetterDiffers(pre, "/" + Routes.DocRouteLeaf(d), "/proprietaires/", "", path);
  }

  /** Routes whose first segments start with different letters never match the same path. */
  lemma FirstLetterDiffers(pre: string, suf: string, pre2: string, suf2: string, path: string)
    requires |pre| > 1 && |pre2| > 1 && pre[1] != pre2[1]
    requires Routes.MatchRoute(pre, suf, path).Some?
    ensures Routes.MatchRoute(pre2, suf2, path).None?
  {
    Routes.MatchRouteSound(pre, suf, path);
    var p := Routes.MatchRoute(pre, suf, path).value;
    assert path[1] == pre[1] by {
      if path == pre + p + suf {
        assert path[1] == (pre + p + suf)[1];
      } else {
        assert path[1] == (pre + p + suf + "/")[1];
      }
    }
    Routes.MatchRouteMismatch(pre2, suf2, path, 1);
  }

  /** A status path built by a client reaches no PUT route but its own. */
  lemma DocPathOnlyItsRoute(d: Document, p: string)
    ensures Routes.MatchVehicleRoute(Routes.DocPath(d, p)).None?
    ensures Routes.MatchOwnerRoute(Routes.DocPath(d, p)).None?
  {
    var path := Routes.DocPath(d, p);
    Routes.DocPathSplit(d, p);
    assert path[1] == Routes.DocRouteBase(d)[1];
    Routes.MatchRouteMismatch("/vehicules/", "", path, 1);
    Routes.MatchRouteMismatch("/proprietaires/", "", path, 1);
  }

  /** A status path built by a client is served by its own route when the plate is one segment, and by Express's 404 otherwise. */
  lemma DocPathServed(d: Document, db: Db, p: string, raw: Option<string>, now: Timestamp, env: AuditEnv)
    ensures ServeStatusPut(db, Routes.DocPath(d, p), raw, now, env) ==
      if Routes.IsSegment(p) then UpdateDocStatus(d, db, p, raw, now, env)
      else Outcome(Response(404, NoRoute("PUT", Routes.DocPath(d, p))), db, [])
  {
    Routes.DocRouteRoundTrip(d, p);
    DocPathOnlyItsRoute(d, p);
  }
}

=== FILE: stats.dfy ===
/**
 * GET /stats: a fixed bundle of COUNT queries over the two tables, and the
 * relations between the counts.
 *
 * The predicates are the queries' WHERE clauses as the server states them.
 * In particular the count reported as `conformiteDocuments.vignette`, and
 * the vignette conjunct of `vehiculesAJour`, select vignettes that are
 * EXPIRÉ, while the owner-compliance query asks for vignettes that are
 * VALIDE. Statuses are non-null, so `!=` in the owner query is plain
 * inequality.
 */
module Stats {
  import opened Wrappers
  import opened Registry
  import Handlers

  /** The number of rows of `t` that satisfy `keep`: `SELECT COUNT(*) ... WHERE keep`. */
  function CountWhere(t: VehicleTable, keep: Vehicle -> bool): nat
  {
    |set p | p in t && keep(t[p])|
  }

  /** The status each per-document count selects. */
  function CountedStatus(d: Document): DocStatus
  {
    if d == Vignette then Expire else Valide
  }

  /** The per-document count reported under `conformiteDocuments`. */
  function DocCount(t: VehicleTable, d: Document): nat
  {
    CountWhere(t, v => GetDoc(v, d) == CountedStatus(d))
  }

  /** The WHERE clause of `vehiculesAJour`. */
  predicate UpToDate(v: Vehicle)
  {
    v.assurance == Valide && v.vignette == Expire && v.visiteTechnique == Valide
  }

  /** The inner condition of the owner query's NOT EXISTS. */
  predicate NonCompliant(v: Vehicle)
  {
    v.assurance != Valide || v.vignette != Valide || v.visiteTechnique != Valide
  }

  /** An owner counts towards `citoyensAJour` when no vehicle of theirs is non-compliant. */
  predicate OwnerCompliant(t: VehicleTable, id: OwnerId)
  {
    !exists p :: p in t && t[p].proprietaireId == Some(id) && NonCompliant(t[p])
  }

  /** Owners no vehicle points to. */
  predicate HasNoVehicle(t: VehicleTable, id: OwnerId)
  {
    forall p :: p in t ==> t[p].proprietaireId != Some(id)
  }

  function CompliantOwners(db: Db): set<OwnerId>
  {
    set i | i in db.owners && OwnerCompliant(db.vehicles, i)
  }

  datatype DocCounts = DocCounts(carteGrise: nat, assurance: nat, vignette: nat, visiteTechnique: nat)

  datatype Revenue = Revenue(douane: nat, mairieVignettes: nat, ontCartesGrises: nat)

  datatype Snapshot = Snapshot(
    totalVehicules: nat,
    totalProprietaires: nat,
    vehiculesAJour: nat,
    citoyensAJour: nat,
    conformiteDocuments: DocCounts,
    revenusSimules: Revenue)

  /** The revenue block is a set of fixed figures, not computed from any table. */
  const SimulatedRevenue: Revenue := Revenue(5420000, 12500000, 21000000)

  lemma {:induction false} SubsetCard<T>(a: set<T>, b: set<T>)
    requires a <= b
    ensures |a| <= |b|
    decreases |a|
  {
    if a != {} {
      var x :| x in a;
      SubsetCard(a - {x}, b - {x});
    }
  }

  /** A weaker WHERE clause never counts fewer rows. */
  lemma CountMonotone(t: VehicleTable, keep: Vehicle -> bool, wider: Vehicle -> bool)
    requires forall v :: keep(v) ==> wider(v)
    ensures CountWhere(t, keep) <= CountWhere(t, wider)
    ensures CountWhere(t, wider) <= |t|
  {
    SubsetCard((set p | p in t && keep(t[p])), (set p | p in t && wider(t[p])));
    SubsetCard((set p | p in t && wider(t[p])), t.Keys);
  }

  /** GET /stats on the current tables. */
  function ComputeStats(db: Db): (s: Snapshot)
    ensures s.totalVehicules == |db.vehicles| && s.totalProprietaires == |db.owners|
    ensures s.vehiculesAJour <= s.conformiteDocuments.assurance
    ensures s.vehiculesAJour <= s.conformiteDocuments.vignette
    ensures s.vehiculesAJour <= s.conformiteDocuments.visiteTechnique
    ensures s.conformiteDocuments.carteGrise <= s.totalVehicules
    ensures s.conformiteDocuments.assurance <= s.totalVehicules
    ensures s.conformiteDocuments.vignette <= s.totalVehicules
    ensures s.conformiteDocuments.visiteTechnique <= s.totalVehicules
    ensures s.citoyensAJour <= s.totalProprietaires
    ensures s.revenusSimules == SimulatedRevenue
  {
    var t := db.vehicles;
    CountMonotone(t, UpToDate, v => GetDoc(v, Assurance) == CountedStatus(Assurance));
    CountMonotone(t, UpToDate, v => GetDoc(v, Vignette) == CountedStatus(Vignette));
    CountMonotone(t, UpToDate, v => GetDoc(v, VisiteTechnique) == CountedStatus(VisiteTechnique));
    CountMonotone(t, v => GetDoc(v, CarteGrise) == CountedStatus(CarteGrise), v => true);
    SubsetCard(CompliantOwners(db), db.owners.Keys);
    Snapshot(
      |t|,
      |db.owners|,
      CountWhere(t, UpToDate),
      |CompliantOwners(db)|,
      DocCounts(DocCount(t, CarteGrise), DocCount(t, Assurance), DocCount(t, Vignette), DocCount(t, VisiteTechnique)),
      SimulatedRevenue)
  }

  /** An owner without vehicles always counts as compliant, so they are all in `citoyensAJour`. */
  lemma OwnersWithoutVehiclesCounted(db: Db)
    ensures |set i | i in db.owners && HasNoVehicle(db.vehicles, i)| <= ComputeStats(db).citoyensAJour
  {
    SubsetCard((set i | i in db.owners && HasNoVehicle(db.vehicles, i)), CompliantOwners(db));
  }

  /**
   * The two compliance notions exclude each other on a vehicle: a vehicle
   * counted in `vehiculesAJour` makes its owner non-compliant, because its
   * vignette is EXPIRÉ where the owner query wants VALIDE.
   */
  lemma UpToDateVehicleMakesOwnerNonCompliant(t: VehicleTable, p: Plate)
    requires p in t && UpToDate(t[p]) && t[p].proprietaireId.Some?
    ensures !OwnerCompliant(t, t[p].proprietaireId.value)
  {
  }

  /**
   * When every vehicle has its assurance, vignette and visite technique
   * VALIDE, every owner is compliant and no vehicle is counted up to date.
   */
  lemma {:induction false} AllValidFleet(db: Db)
    requires forall p :: p in db.vehicles ==> !NonCompliant(db.vehicles[p])
    ensures ComputeStats(db).citoyensAJour == ComputeStats(db).totalProprietaires
    ensures ComputeStats(db).vehiculesAJour == 0
  {
    assert CompliantOwners(db) == db.owners.Keys;
    assert (set p | p in db.vehicles && UpToDate(db.vehicles[p])) == {};
  }

  /** Counts only see rows: a table that differs in one row the predicate cannot tell apart counts the same. */
  lemma CountRowInvariant(t: VehicleTable, u: VehicleTable, p: Plate, keep: Vehicle -> bool)
    requires u.Keys == t.Keys
    requires forall q :: q in t && q != p ==> u[q] == t[q]
    requires p in t ==> keep(u[p]) == keep(t[p])
    ensures CountWhere(u, keep) == CountWhere(t, keep)
  {
    assert (set q | q in u && keep(u[q])) == (set q | q in t && keep(t[q]));
  }

  /** A status route on document `d` leaves the totals and every other document's count as they were. */
  lemma StatusUpdateKeepsOtherCounts(d: Document, e: Document, db: Db, p: Plate, raw: Option<string>,
                                     now: Timestamp, env: Handlers.AuditEnv)
    requires d != e
    ensures var after := Handlers.UpdateDocStatus(d, db, p, raw, now, env).db;
      && DocCount(after.vehicles, e) == DocCount(db.vehicles, e)
      && |after.vehicles| == |db.vehicles|
      && after.owners == db.owners
  {
    Handlers.UpdateDocStatusWrite(d, db, p, raw, now, env);
    var after := Handlers.UpdateDocStatus(d, db, p, raw, now, env).db;
    if ParseDocStatus(raw).Some? && p in db.vehicles {
      CountRowInvariant(db.vehicles, after.vehicles, p, v => GetDoc(v, e) == CountedStatus(e));
    }
  }

  /** Setting a document to the status its count selects never lowers that count. */
  lemma CountedStatusUpdateRaisesCount(d: Document, db: Db, p: Plate, raw: Option<string>,
                                       now: Timestamp, env: Handlers.AuditEnv)
    requires ParseDocStatus(raw) == Some(CountedStatus(d))
    ensures DocCount(Handlers.UpdateDocStatus(d, db, p, raw, now, env).db.vehicles, d) >= DocCount(db.vehicles, d)
  {
    var after := Handlers.UpdateDocStatus(d, db, p, raw, now, env).db;
    var keep := v => GetDoc(v, d) == CountedStatus(d);
    SubsetCard((set q | q in db.vehicles && keep(db.vehicles[q])), (set q | q in after.vehicles && keep(after.vehicles[q])));
  }
}

=== FILE: wire.dfy ===
/**
 * What travels between the server and the React client: JSON values, the
 * serialisation of the server's bodies, and the way axios turns a response
 * into either a resolved value or a rejection.
 */
module Wire {
  import opened Wrappers
  import opened Registry
  import opened Handlers

  /** The JSON values (plus JavaScript's `undefined`) the client code inspects. */
  datatype Json = JUndefined | JNull | JStr(s: string) | JNum(n: int) | JArr(items: seq<Json>) | JObj(fields: map<string, Json>)

  /** JavaScript truthiness. */
  predicate Truthy(j: Json)
  {
    match j
    case JUndefined => false
    case JNull => false
    case JStr(s) => s != ""
    case JNum(n) => n != 0
    case JArr(_) => true
    case JObj(_) => true
  }

  /** `null` and `undefined`: the values whose property access throws. */
  predicate Nullish(j: Json)
  {
    j.JUndefined? || j.JNull?
  }

  /**
   * Property access `j.k` on a value that is not nullish. Only named
   * properties are read, so an array's indices and `length` are not fields.
   */
  function Field(j: Json, k: string): (r: Json)
    ensures j.JObj? && k in j.fields ==> r == j.fields[k]
    ensures !(j.JObj? && k in j.fields) ==> r == JUndefined
  {
    if j.JObj? && k in j.fields then j.fields[k] else JUndefined
  }

  function DigitChar(n: nat): char
    requires n < 10
  {
    "0123456789"[n]
  }

  function NatText(n: nat): (s: string)
    ensures |s| > 0
    decreases n
  {
    if n < 10 then [DigitChar(n)] else NatText(n / 10) + [DigitChar(n % 10)]
  }

  /** The text a template literal `${j}` inserts. */
  function TemplateText(j: Json): string
  {
    match j
    case JUndefined => "undefined"
    case JNull => "null"
    case JStr(s) => s
    case JNum(n) => if n < 0 then "-" + NatText(-n) else NatText(n)
    case JArr(items) => JoinText(items)
    case JObj(_) => "[object Object]"
  }

  /** `Array.prototype.join` with commas, where null and undefined elements print as nothing. */
  function JoinText(items: seq<Json>): string
  {
    if items == [] then ""
    else
      (if Nullish(items[0]) then "" else TemplateText(items[0]))
      + (if |items| > 1 then "," + JoinText(items[1..]) else "")
  }

  function OptText(o: Option<string>): Json
  {
    match o
    case Some(s) => JStr(s)
    case None => JNull
  }

  function OptNum(o: Option<int>): Json
  {
    match o
    case Some(n) => JNum(n)
    case None => JNull
  }

  /** The columns of `vehicules`, as node-postgres names them in a row object. */
  const VehicleColumns: set<string> := {
    "plaque_immatriculation", "marque", "modele", "annee", "couleur", "numero_chassis",
    "statut_carte_grise", "statut_assurance", "statut_vignette", "statut_visite_technique",
    "statut_police", "statut_general", "proprietaire_id", "date_creation", "date_modification"}

  /** The JSON value of column `k` of row `v`; timestamps are abstracted to numbers. */
  function VehicleColumn(v: Vehicle, k: string): Json
  {
    if k == "plaque_immatriculation" then JStr(v.plaque)
    else if k == "marque" then OptText(v.marque)
    else if k == "modele" then OptText(v.modele)
    else if k == "annee" then OptNum(v.annee)
    else if k == "couleur" then OptText(v.couleur)
    else if k == "numero_chassis" then OptText(v.numeroChassis)
    else if k == "statut_carte_grise" then JStr(DocStatusName(v.carteGrise))
    else if k == "statut_assurance" then JStr(DocStatusName(v.assurance))
    else if k == "statut_vignette" then JStr(DocStatusName(v.vignette))
    else if k == "statut_visite_technique" then JStr(DocStatusName(v.visiteTechnique))
    else if k == "statut_police" then JStr(PoliceStatusName(v.statutPolice))
    else if k == "statut_general" then OptText(v.statutGeneral)
    else if k == "proprietaire_id" then OptNum(v.proprietaireId)
    else if k == "date_creation" then JNum(v.dateCreation)
    else if k == "date_modification" then JNum(v.dateModification)
    else JUndefined
  }

  /** A `vehicules` row as node-postgres hands it to `res.json`. */
  function VehicleJson(v: Vehicle): (j: Json)
    ensures j.JObj? && j.fields.Keys == VehicleColumns
    ensures forall k :: k in VehicleColumns ==> Field(j, k) == VehicleColumn(v, k)
  {
    JObj(map k | k in VehicleColumns :: VehicleColumn(v, k))
  }

  function OwnerJson(o: Owner): Json
  {
    JObj(map[
      "id" := JNum(o.id),
      "nom" := OptText(o.nom),
      "prenom" := OptText(o.prenom),
      "date_naissance" := OptText(o.dateNaissance),
      "adresse" := OptText(o.adresse),
      "telephone" := OptText(o.telephone),
      "email" := OptText(o.email)])
  }

  /** The JSON the client receives for each body; a `res.send` text arrives as a string. */
  function BodyJson(b: Body): Json
  {
    match b
    case Message(t) => JObj(map["message" := JStr(t)])
    case RowBody(v) => VehicleJson(v)
    case RowList(rows) => JArr(seq(|rows|, i requires 0 <= i < |rows| => VehicleJson(rows[i])))
    case WithVehicle(t, v) => JObj(map["message" := JStr(t), "vehicule" := VehicleJson(v)])
    case WithOwner(t, o) => JObj(map["message" := JStr(t), "data" := OwnerJson(o)])
    case ErrorText(t) => JStr(t)
    case NoRoute(verb, path) => JStr(NoRoutePage(verb, path))
  }

  /** Express's default 404 page, reduced to its one line of text. */
  function NoRoutePage(verb: string, path: string): string
  {
    "Cannot " + verb + " " + path
  }

  /** How an axios call settles: resolved with the body, or rejected with the response if there was one. */
  datatype Reply = Resolved(data: Json) | Rejected(status: Option<int>, data: Json)

  /** axios resolves on a 2xx status and rejects on any other. */
  function Deliver(r: Response): (reply: Reply)
    ensures reply.Resolved? <==> 200 <= r.code < 300
    ensures reply.Rejected? ==> reply.status == Some(r.code)
    ensures reply.data == BodyJson(r.body)
  {
    if 200 <= r.code < 300 then Resolved(BodyJson(r.body)) else Rejected(Some(r.code), BodyJson(r.body))
  }

  // ---------------------------------------------------------------------------
  // Reading a row back
  // ---------------------------------------------------------------------------

  function ReadDocStatus(j: Json): Option<DocStatus>
  {
    if j.JStr? then ParseDocStatus(Some(j.s)) else None
  }

  function ReadPoliceStatus(j: Json): Option<PoliceStatus>
  {
    if j == JStr("NORMAL") then Some(Normal)
    else if j == JStr("VOLÉ") then Some(Vole)
    else if j == JStr("EN FUITE") then Some(EnFuite)
    else if j == JStr("INTERCEPTÉ") then Some(Intercepte)
    else None
  }

  function ReadOptText(j: Json): Option<Option<string>>
  {
    match j
    case JNull => Some(None)
    case JStr(s) => Some(Some(s))
    case _ => None
  }

  function ReadOptNum(j: Json): Option<Option<int>>
  {
    match j
    case JNull => Some(None)
    case JNum(n) => Some(Some(n))
    case _ => None
  }

  /** Reads a `vehicules` row out of its JSON form; None when a column is missing or ill-typed. */
  function ReadVehicle(j: Json): Option<Vehicle>
  {
    var plaque := Field(j, "plaque_immatriculation");
    var marque := ReadOptText(Field(j, "marque"));
    var modele := ReadOptText(Field(j, "modele"));
    var annee := ReadOptNum(Field(j, "annee"));
    var couleur := ReadOptText(Field(j, "couleur"));
    var chassis := ReadOptText(Field(j, "numero_chassis"));
    var cg := ReadDocStatus(Field(j, "statut_carte_grise"));
    var ins := ReadDocStatus(Field(j, "statut_assurance"));
    var vi := ReadDocStatus(Field(j, "statut_vignette"));
    var vt := ReadDocStatus(Field(j, "statut_visite_technique"));
    var po := ReadPoliceStatus(Field(j, "statut_police"));
    var gen := ReadOptText(Field(j, "statut_general"));
    var owner := ReadOptNum(Field(j, "proprietaire_id"));
    var created := Field(j, "date_creation");
    var modified := Field(j, "date_modification");
    if plaque.JStr? && marque.Some? && modele.Some? && annee.Some? && couleur.Some? && chassis.Some?
       && cg.Some? && ins.Some? && vi.Some? && vt.Some? && po.Some? && gen.Some? && owner.Some?
       && created.JNum? && modified.JNum?
    then Some(Vehicle(plaque.s, marque.value, modele.value, annee.value, couleur.value, chassis.value,
                      cg.value, ins.value, vi.value, vt.value, po.value, gen.value, owner.value,
                      created.n, modified.n))
    else None
  }

  /** The JSON row carries the whole row: reading it back gives the vehicle that was sent. */
  lemma VehicleJsonRoundTrip(v: Vehicle)
    ensures ReadVehicle(VehicleJson(v)) == Some(v)
  {
    assert ReadPoliceStatus(JStr(PoliceStatusName(v.statutPolice))) == Some(v.statutPolice);
    ReadOptTextBack(v.marque);
    ReadOptTextBack(v.modele);
    ReadOptTextBack(v.couleur);
    ReadOptTextBack(v.numeroChassis);
    ReadOptTextBack(v.statutGeneral);
    ReadOptNumBack(v.annee);
    ReadOptNumBack(v.proprietaireId);
    ParseDocStatusName(v.carteGrise);
    ParseDocStatusName(v.assurance);
    ParseDocStatusName(v.vignette);
    ParseDocStatusName(v.visiteTechnique);
  }

  lemma ReadOptTextBack(o: Option<string>)
    ensures ReadOptText(OptText(o)) == Some(o)
  {
  }

  lemma ReadOptNumBack(o: Option<int>)
    ensures ReadOptNum(OptNum(o)) == Some(o)
  {
  }

  /** The JSON row shows document `d`'s status under that document's column name. */
  lemma VehicleJsonColumn(v: Vehicle, d: Document)
    ensures Field(VehicleJson(v), ColumnName(d)) == JStr(DocStatusName(GetDoc(v, d)))
    ensures Field(VehicleJson(v), "plaque_immatriculation") == JStr(v.plaque)
    ensures Truthy(Field(VehicleJson(v), "statut_police"))
  {
  }
}

=== FILE: wrappers.dfy ===
/** A value that may be absent: SQL NULL, a missing JSON field, a null React state. */
module Wrappers {

  datatype Option<+T> = None | Some(value: T) {

    /** Returns the value held in Some, or `default` when None */
    function GetOr(default: T): (r: T)
      ensures Some? ==> r == value
      ensures None? ==> r == default
    {
      match this
      case Some(v) => v
      case None => default
    }
  }
}
